=== FILE: README.md ===
# VLC module-chain options: a Dafny model

VLC configures a chain of modules from a string like
`transcode{vcodec=mp4v,vb=800}:std{access=file,dst="out.mp4"}`.
`src/misc/configuration_chain.c` handles such a string in three parts:

- **`_get_chain_end`** finds where one option value ends. It skips
  blanks, steps over ordinary characters, and stops at a `,`, a `}` or
  the end. At the first quote or `{` it returns just after that one span
  closes (or at the end when it never closes), without looking at what
  follows: for `"x"y,z` it stops before `y`.
- **`config_ChainCreate`** reads the first module of the chain. It returns
  - the module name;
  - the ordered list of `name[=value]` options inside its braces;
  - the rest of the chain: the text after a `:` that stands exactly where
    parsing stopped. Without braces that is the first character after the
    name and its blanks; with braces it is the character straight after
    the closing `}`. A `:` inside a value, or after blanks that follow the
    `}`, does not count.
- **`__config_ChainParse`** binds the parsed options of a module to that
  module's declared options. Each option becomes at most one variable
  assignment.

The model has six modules:

| module | file | what it holds |
|---|---|---|
| `Wrappers` | `wrappers.dfy` | `Option`, which stands for a C pointer that may be NULL |
| `ChainScan` | `chain_scan.dfy` | the scanner, written as three mutually recursive functions (`ChainEnd`, `Scan`, `Braced`), with two independent partners |
| `ChainParse` | `chain_parse.dfy` | `ChainCreate` and its parts, with `Node` and `Chain` in place of the `config_chain_t` linked list |
| `ChainRender` | `chain_render.dfy` | a printer for chains, and the round trip `ChainCreate(Render(c)) == c` |
| `ChainBind` | `chain_bind.dfy` | option resolution, the skip checks, value conversion, and the loop over all options |
| `ChainExamples` | `chain_examples.dfy` | concrete chains worked through the parser and the binder |

The scanner has two independent partners:

- a single-pass automaton with an explicit nesting counter (`Run`);
- a characterisation by brace balance (`ClosesBrace`).

The binder's registry and variables are modelled as follows:

- `config_FindConfig` becomes the `configs` map of a `Registry`.
- `config_GetType` becomes its `types` map.
- `strtol` and `atof` become the uninterpreted functions `toInt` and `toFloat` of the same `Registry`.
- The variables that `var_Get` reads and `var_Set` writes form a `Store`. Each option is bound against the `Store` that the options before it left.

A C string is modelled as the `string` of its characters before the NUL. A
cursor is an index into that string. The index `|s|`, read through `At`,
stands for the terminating NUL.

## Behaviours that are easy to misread

The model follows the code in each of these cases.

- **Option matching is per declared name.** Each declared name is tried
  in order, and within one declared name the tests run in this order:
  exact, then `no-`/`no`, then `*`. So an exact match with a later
  declared name does not beat a negated match with an earlier one:
  `NegationOfEarlierEntryWins` shows that `noa` against `["a", "noa"]`
  resolves as the negation of `a`.
- **A quoted value always loses its last character.** The trailing-blank
  trim at lines 158-159 runs only when the last character of the span is
  `"`, which is not a blank, so it never removes anything. The value then
  loses its last character whether or not that character is the closing
  quote (`ShapeValueCases`).
- **An empty group drops the rest of the chain.** In `a{}:b`, the option
  loop stops on an empty name at the `}` without consuming it. The parser
  then sees `}` instead of `:`, so the remainder is NULL
  (`EmptyGroupDropsRest`, `EmptyGroupNoRest`). The same happens for
  `mod{=1}` (`EmptyFirstName`).
- **Options are separated by `,`, not `:`.** The format comment at lines
  40-41 shows `module{option=*:option=*}`, but the option loop only
  steps over `,` (line 196). So `m{x=1:y=2}` gives the single option `x`
  with value `1:y=2` (`ColonInGroup`).
- **Blanks are skipped before a `:` only when there are no braces.**
  `a :b` keeps the remainder `b` (`BlankBeforeColon`), but `a{x=1} :b`
  has no remainder, because the `:` test at line 206 looks at the
  character straight after the `}` (`BlankAfterGroup`).
- **The module name keeps its leading blanks.** The name is the prefix of
  the input from offset 0, so leading blanks are part of it
  (`ChainCreateModuleToken`).

## Model

| member | source | states |
|---|---|---|
| ChainScan.SkipSpace | src/misc/configuration_chain.c:43 | the cursor moves only over blanks, and it stops at the first non-blank or at the end |
| ChainScan.TrimEnd | src/misc/configuration_chain.c:44-45 | the end moves left only over blanks, never below the start, and it stops after a non-blank |
| ChainScan.Quoted | src/misc/configuration_chain.c:64-75 | a quoted span ends just after the first later occurrence of the same quote, or at the end of the string when there is none; braces and the other quote do not matter inside it |
| ChainScan.ChainEnd | src/misc/configuration_chain.c:48-77 | the result lies between the first non-blank and the end of the string, and when the value starts with `{` the result lies past it |
| ChainScan.ChainEndIsRun | src/misc/configuration_chain.c:48-77 | the recursive scanner agrees on every input with a single-pass scanner that counts brace depth |
| ChainScan.BracedIsRun | src/misc/configuration_chain.c:68-75 | closing one brace level by recursion, then continuing with `d` levels open, is the same as counting `d + 1` levels down |
| ChainScan.BracedBalance | src/misc/configuration_chain.c:68-75 | a brace span ends where the `{`/`}` balance first goes negative, or at the end of an unclosed input; quotes inside braces are ordinary characters |
| ChainScan.BracedFirstClose | src/misc/configuration_chain.c:68-75 | conversely, any index with that first-negative-balance property is where the brace scan stops |
| ChainScan.Braced | src/misc/configuration_chain.c:68-75 | the brace scan never moves back and stays within the string; `BracedBalance` and `BracedFirstClose` state that it stops where the brace balance first goes negative |
| ChainScan.ScanSkipsPlain | src/misc/configuration_chain.c:56-62 | characters other than `,`, `}`, `{` and quotes do not change where the top-level scan stops |
| ChainScan.ChainEndTopLevel | src/misc/configuration_chain.c:52-66 | at the first special character after the blanks: `,`, `}` or the end is returned as it is, and a quote or a `{` makes the result the end of that one span, whatever follows it |
| ChainScan.Scan | src/misc/configuration_chain.c:54-66 | the outer loop never moves back and stays within the string, and a `{` where it starts is stepped past; `ChainEndTopLevel` and `ScanSkipsPlain` state where it stops |
| ChainParse.ModuleNameEnd | src/misc/configuration_chain.c:91 | the module name runs up to the first `{`, `:` or blank, or to the end |
| ChainParse.OptionNameEnd | src/misc/configuration_chain.c:113-114 | an option name runs up to the first `=`, `,`, `{`, `}` or blank, or to the end |
| ChainParse.ShapeValueCases | src/misc/configuration_chain.c:135-170 | a value is absent exactly when its span is blank, or when the span is delimited and shorter than three characters; a span that opens with a quote, or with `{` after `=`, loses its first and last character; any other span keeps its text from the first non-blank, with trailing blanks removed |
| ChainParse.ShapeValue | src/misc/configuration_chain.c:135-170 | a value that is present is non-empty and no longer than its span; `ShapeValueCases` states every case |
| ChainParse.OptionValue | src/misc/configuration_chain.c:127-178 | a value is read only at `=` or `{`; otherwise the option has no value and the cursor stays where it is; a value that is present is never empty; `OptionValueBrackets` states which brackets are kept |
| ChainParse.OptionValueBrackets | src/misc/configuration_chain.c:127-168 | a `{` straight after the name gives a value that starts with that `{`, is a prefix of the brace span, and is the whole span, braces included, when the span ends with `}`; after `=`, a span that opens with `{` and has at least three characters loses its first and last character |
| ChainParse.OptionValueKeepsBraces | src/misc/configuration_chain.c:127-168 | the `{` case of `OptionValueBrackets`: the value is read from the `{` itself with its brackets kept |
| ChainParse.OptionValueUnwraps | src/misc/configuration_chain.c:127-168 | the `=` case of `OptionValueBrackets`: a span opened by `{` is unwrapped like a quoted one |
| ChainParse.BracedValueShape | src/misc/configuration_chain.c:135-168 | a span that starts with `{` and keeps its brackets keeps its text, only trailing blanks aside, and is kept whole when it ends with `}` |
| ChainParse.OptionAt | src/misc/configuration_chain.c:111-196 | the option's name is exactly the name span and is valid, its value is never the empty string, and the cursor never moves back before the end of the name; `OptionAtSkipsBlanks` states where the value is read |
| ChainParse.OptionAtSkipsBlanks | src/misc/configuration_chain.c:123-178 | the blanks between an option's name and its `=` or `{` are skipped; the value is read there, after `=` from the next character and at `{` from the `{` with brackets kept; with neither, there is no value |
| ChainParse.Group | src/misc/configuration_chain.c:105-203 | every option built is valid, and the loop stops just after a `}` or at the character that ends an empty name, never at a `:`; `GroupStepCases` states each turn, the trailing `,` before `}` included |
| ChainParse.GroupStepCases | src/misc/configuration_chain.c:196-202 | after an option, a `}` closes the group just after it, and so does a `,` directly before `}`; a `,` before anything else moves on to the next option past it; with neither, the next option is read where the value stopped |
| ChainParse.RestAt | src/misc/configuration_chain.c:206-208 | there is a remainder exactly when the character at the cursor is `:`, and it is the whole text after that character |
| ChainParse.ChainCreate | src/misc/configuration_chain.c:79-209 | NULL input gives three NULL results; no module name means no options and no remainder; every option has a valid name and a non-empty value or none; `ChainCreateGroupAfterBlanks` states that blanks before `{` are skipped |
| ChainParse.ChainCreateGroupAfterBlanks | src/misc/configuration_chain.c:97-208 | the blanks between the module name and `{` are skipped; the options are those of the group opened there, and the remainder is looked for where that group stops |
| ChainParse.ChainCreateNoName | src/misc/configuration_chain.c:87-93 | there is no module name exactly when the input is empty or starts with `{` or `:` |
| ChainParse.ChainCreateModuleToken | src/misc/configuration_chain.c:89-95 | the module name is the prefix from offset 0, leading blanks included, through the first name token |
| ChainParse.ChainCreateRest | src/misc/configuration_chain.c:196-208 | a remainder is always a suffix of the input that follows a `:`; `ChainCreateRestPlain` and `ChainCreateRestGroup` say which `:` |
| ChainParse.ChainAfterName | src/misc/configuration_chain.c:97-208 | after a non-empty module name, the name is the prefix up to its end and every option built is valid |
| ChainParse.ChainCreateRestPlain | src/misc/configuration_chain.c:97-208 | without braces there are no options, and the remainder is the text after the first character following the name and its blanks exactly when that character is `:` |
| ChainParse.ChainCreateRestGroup | src/misc/configuration_chain.c:196-206 | with braces, the `:` of a remainder stands directly after a `}`; no blanks are skipped between them |
| ChainParse.AfterNameRestGroup | src/misc/configuration_chain.c:196-206 | the same as `ChainCreateRestGroup`, for the parse that follows the module name |
| ChainParse.RestAfterBrace | src/misc/configuration_chain.c:196-206 | where the option loop stops, a remainder's `:` is at that very cursor and follows a `}` |
| ChainParse.GroupEmptyStop | src/misc/configuration_chain.c:109-121 | a group that yields no option stops at its first non-blank, and that character is `=`, `,`, `{`, `}` or the end |
| ChainParse.EmptyGroupNoRest | src/misc/configuration_chain.c:105-208 | when the braces yield no option, no remainder is returned, even when a `:` follows |
| ChainRender.ParseRender | src/misc/configuration_chain.c:79-209 | every chain with a valid module name and printable options is parsed back exactly, with options in input order and the remainder kept |
| ChainBind.EntryHitMeaning | src/misc/configuration_chain.c:263-281 | an option matches a declared name exactly when it is equal to it; as a negation when it is that name behind `no-` or `no`; as a once-option when the declared name is the option behind `*`; earlier tests take precedence |
| ChainBind.EntryHit | src/misc/configuration_chain.c:263-281 | an exact match happens exactly when the names are equal; a negation is only for a different name that starts with `no` and is two or three characters longer; a once-option is only for a declared name that is the option behind `*`; `EntryHitMeaning` states the converse directions |
| ChainBind.ResolveFrom | src/misc/configuration_chain.c:261-290 | the resolved declaration is the first one in the list that the option matches in any way; no match means that no declaration matches |
| ChainBind.ResolvedTarget | src/misc/configuration_chain.c:292 | the variable is prefix + option name for an exact or once match, with the `*` dropped; for a negation, it is prefix + declared name, which is the option name without `no-` or `no` |
| ChainBind.TargetName | src/misc/configuration_chain.c:292 | the variable name starts with the prefix and continues with the declared name, without its first character (the `*`) for a once-option |
| ChainBind.RouteOf | src/misc/configuration_chain.c:295-323 | a name is dropped exactly when its configuration entry has a replacement that is `SUPPRESSED` or the entry is strict; a name whose entry has any other replacement is bound under that replacement; a name without a replacement is bound under itself |
| ChainBind.Coerce | src/misc/configuration_chain.c:345-365 | the value is a bool exactly when the variable is bool, and it is then "not negated"; the value is a string exactly when the variable is a string or module, and it is then the option's text; an integer variable gets an integer, a float variable a real, and any other type the zero value |
| ChainBind.BindNode | src/misc/configuration_chain.c:249-385 | an empty name and an unknown option are skipped, each for its own reason; a set always targets a typed variable and has a value unless the variable is bool; a bool is set to "not negated"; a string is set to the text; a once-option sets only an empty string variable |
| ChainBind.BindNodeSetsIff | src/misc/configuration_chain.c:256-379 | an option sets a variable if and only if all the checks pass; the variable is the replacement of a softly deprecated name, and otherwise the prefixed declared name |
| ChainBind.BindNodeRetired | src/misc/configuration_chain.c:299-315 | a retired name is skipped whatever its type and value: `SUPPRESSED` is checked first, then strict deprecation |
| ChainBind.BindNodeGates | src/misc/configuration_chain.c:326-378 | after routing, the checks run in this order: unknown type, then missing value for a non-bool, then a once-option on a non-string, then a once-option on a string that already holds text; the first check that fails names the skip |
| ChainBind.Assign | src/misc/configuration_chain.c:379 | a set writes its value to its variable and leaves every other variable alone; a skip changes nothing |
| ChainBind.Thread | src/misc/configuration_chain.c:249-385 | there is one outcome per option, and the variables at the end differ from those at the start only where some option set one |
| ChainBind.ThreadAppend | src/misc/configuration_chain.c:249-385 | binding a list of options is binding its first part, then its second part, starting from the variables the first part left |
| ChainBind.ThreadStep | src/misc/configuration_chain.c:249-385 | option `k` is decided against the variables the options before it left, and a skip does not stop later options |
| ChainBind.ThreadLastWrite | src/misc/configuration_chain.c:379 | a variable ends with the value given by the last option that set it |
| ChainBind.BindChain | src/misc/configuration_chain.c:246-249 | a NULL prefix binds exactly as the empty prefix, with one outcome per option |
| ChainBind.TextStaysNonEmpty | src/misc/configuration_chain.c:357-379 | a string variable that holds text keeps holding text whatever options are bound after it |
| ChainBind.OnceMarks | src/misc/configuration_chain.c:357-379 | a once-option that sets its variable leaves that variable holding the option's own non-empty text |
| ChainBind.OnceBlocked | src/misc/configuration_chain.c:366-376 | a once-option never sets a variable that already holds text |
| ChainBind.OnceSetsOnce | src/misc/configuration_chain.c:366-379 | once an option that reaches a variable by a `*` match has set it, no later such option sets it; an earlier one that was skipped, say for a missing value, does not stop a later one from setting it |
| ChainExamples.FirstOfTwo | src/misc/configuration_chain.c:79-209 | `a{x=1}:b{y=2}` gives module `a`, the option `x=1` and the remainder `b{y=2}` |
| ChainExamples.SecondOfTwo | src/misc/configuration_chain.c:79-209 | parsing that remainder gives module `b`, the option `y=2` and no remainder |
| ChainExamples.ColonInGroup | src/misc/configuration_chain.c:40-41 | unlike the format comment, `m{x=1:y=2}` gives one option `x` with value `1:y=2`, because only `,` separates options (line 196) |
| ChainExamples.BlankBeforeColon | src/misc/configuration_chain.c:97-208 | `a :b` gives module `a`, no options and the remainder `b` |
| ChainExamples.BlankAfterGroup | src/misc/configuration_chain.c:196-206 | `a{x=1} :b` gives no remainder: the blank after `}` hides the `:` |
| ChainExamples.BlankBeforeEquals | src/misc/configuration_chain.c:123-178 | `m{a =1}` gives option `a` the value `1` |
| ChainExamples.BlankBeforeGroup | src/misc/configuration_chain.c:97-202 | `a {x=1}` gives module `a` with option `x=1` |
| ChainExamples.TrailingComma | src/misc/configuration_chain.c:196-208 | `m{a=1,}:b` gives module `m`, option `a=1` and the remainder `b` |
| ChainExamples.QuotedSeparators | src/misc/configuration_chain.c:153-162 | `mod{a="x,y}z"}` keeps the `,` and `}` inside the quotes: the value is `x,y}z` |
| ChainExamples.EmptyFirstName | src/misc/configuration_chain.c:117-121 | `mod{=1}` gives module `mod`, no options and no remainder |
| ChainExamples.EmptyGroupDropsRest | src/misc/configuration_chain.c:105-208 | `a{}:b` gives module `a`, no options and no remainder |
| ChainExamples.BareValueTrimmed | src/misc/configuration_chain.c:141-168 | `m{a= 1 }` gives the value `1`, with the blanks on both sides removed |
| ChainExamples.BracesKept | src/misc/configuration_chain.c:127-168 | `m{a{b=1}}` gives option `a` the value `{b=1}`, braces included |
| ChainExamples.NegationOfEarlierEntryWins | src/misc/configuration_chain.c:261-283 | `noa` against the declarations `a`, `noa` resolves as the negation of `a` |
| ChainExamples.NegatedBool | src/misc/configuration_chain.c:267-274 | `no-fs` on a bool `fs` under prefix `sout-` sets `sout-fs` to false |
| ChainExamples.SoftDeprecation | src/misc/configuration_chain.c:316-322 | a softly deprecated name passes its value on to the name that replaces it: `old=5` under prefix `x-`, with `x-old` replaced by the string variable `x-new`, sets `x-new` to `5` |
| ChainExamples.OnceTwice | src/misc/configuration_chain.c:366-376 | two options for one `*` declaration: the first sets the variable, the second is skipped as not the first occurrence |

## Left out

- Memory management: the `strndup`, `malloc`, `memcpy` and `free` calls, and `config_ChainDestroy` (lines 211-225). The model uses immutable values, so there is nothing to free.
- The `var_Create` loop of lines 235-244. It only creates the variables. The model's `Store` starts with whatever variables the caller supplies.
- The undefined behaviour at line 237, where `asprintf` is given a NULL prefix. The model reads a NULL prefix as empty, which is what line 247 does before the binding loop.
- The diagnostics (`fprintf`, `msg_Warn`, `msg_Err`, `msg_Dbg`). Instead, each skip carries a `SkipReason` naming the check that failed.
- `strtol` and `atof`, which are uninterpreted functions in the `Registry`. Integer width and floating point are not modelled.
- The real registry and variable system, which are maps. `var_Get` of a variable that is missing or holds no string reads as the empty string (`CurrentText`). The source assumes such a variable holds a string.
- Inputs with an interior NUL. A Dafny `string` may contain `'\0'`, and the model treats it as an ordinary character; C would stop at it.
- A NULL option name (line 256). `ChainCreate` never produces one, so `Node.name` is a plain string, and only the empty-name case is modelled.
- ChainBind.Coerce: says that an integer or float variable gets an integer or a real, but not which one, because `strtol` and `atof` are left uninterpreted.

=== FILE: chain_bind.dfy ===
/**
 * The binding half of `__config_ChainParse` (lines 249-385): each parsed
 * option is matched against the module's declared option names, checked
 * against the configuration registry, and turned into at most one
 * variable assignment.
 *
 * The registry lookups `config_FindConfig` and `config_GetType` are the
 * maps of a `Registry`; the variables that `var_Get` reads and `var_Set`
 * writes are a `Store`, threaded from one option to the next.
 */
module ChainBind {
  import opened Wrappers
  import opened ChainParse

  /** The types `config_GetType` reports; `NoType` is its 0 for a name it does not know. */
  datatype VarType = NoType | BoolType | IntegerType | FloatType | StringType | ModuleType | OtherType

  /** A `vlc_value_t` as it is set; `ZeroVal` is the zeroed value of a type the binder does not handle. */
  datatype Value = BoolVal(b: bool) | IntVal(i: int) | FloatVal(f: real) | StringVal(text: string) | ZeroVal

  /** The deprecation fields of a configuration entry: the name that replaces it, if any, and whether the old name is refused. */
  datatype ConfigEntry = ConfigEntry(current: Option<string>, strict: bool)

  /**
   * What the binder asks of the configuration: the entry `config_FindConfig`
   * finds for a name, the type `config_GetType` gives it, and the libc
   * conversions `strtol(…, NULL, 0)` and `atof`, left uninterpreted.
   */
  datatype Registry = Registry(
    configs: map<string, ConfigEntry>,
    types: map<string, VarType>,
    toInt: string -> int,
    toFloat: string -> real)

  /** The variables and their current values. */
  type Store = map<string, Value>

  /** How an option name matched a declared name: as it is, behind `no-`/`no`, or as a `*` once-option. */
  datatype Kind = Exact | Negated | Once

  /** The first declared name an option matched, by its index in the declaration list. */
  datatype Hit = Hit(index: nat, kind: Kind)

  datatype SkipReason =
    | EmptyName | UnknownOption | Suppressed | DeprecatedStrict
    | UnknownType | MissingValue | OnceNeedsString | NotFirstOccurrence

  /** What one option does: nothing, for a reason, or one `var_Set`. */
  datatype Outcome = Skip(reason: SkipReason) | Set(target: string, value: Value)

  /** Where the value of a matched option goes: a variable, or nowhere because the name is retired. */
  datatype Route = Drop(reason: SkipReason) | Bind(name: string)

  // ---------------------------------------------------------------------
  // Matching an option against the declared names.

  /** `strncmp(s, p, |p|) == 0`. */
  predicate StartsWith(s: string, p: string) {
    |p| <= |s| && s[..|p|] == p
  }

  /**
   * How option `name` matches the declared name `entry` (lines 263-281),
   * in the order the tests are made: equal, then `name` is `entry` behind
   * `no-` or `no`, then `entry` is `name` behind a `*`.
   */
  function EntryHit(entry: string, name: string): (r: Option<Kind>)
    ensures r == Some(Exact) <==> entry == name
    ensures r == Some(Negated) ==> entry != name && StartsWith(name, "no") && (|name| == |entry| + 2 || |name| == |entry| + 3)
    ensures r == Some(Once) ==> entry != name && entry == "*" + name
  {
    if entry == name then Some(Exact)
    else if (StartsWith(name, "no-") && entry == name[3..]) || (StartsWith(name, "no") && entry == name[2..]) then
      Some(Negated)
    else if 0 < |entry| && entry[0] == '*' && entry[1..] == name then Some(Once)
    else None
  }

  /** `EntryHit` in terms of how the two names are put together. */
  lemma EntryHitMeaning(entry: string, name: string)
    ensures EntryHit(entry, name) == Some(Exact) <==> name == entry
    ensures EntryHit(entry, name) == Some(Negated) <==>
      name != entry && (name == "no-" + entry || name == "no" + entry)
    ensures EntryHit(entry, name) == Some(Once) <==>
      name != entry && name != "no-" + entry && name != "no" + entry && entry == "*" + name
  {
    if StartsWith(name, "no-") {
      assert name == "no-" + name[3..];
    }
    if StartsWith(name, "no") {
      assert name == "no" + name[2..];
    }
    if name == "no-" + entry {
      assert name[..3] == "no-" && name[3..] == entry;
    }
    if name == "no" + entry {
      assert name[..2] == "no" && name[2..] == entry;
    }
    if 0 < |entry| && entry[0] == '*' {
      assert entry == "*" + entry[1..];
    }
    if entry == "*" + name {
      assert entry[1..] == name;
    }
  }

  /**
   * The declaration loop of lines 261-283 from index `i`: the first
   * declared name that `name` matches, or `None` when the list runs out.
   */
  function ResolveFrom(schema: seq<string>, name: string, i: nat): (r: Option<Hit>)
    requires i <= |schema|
    ensures r.Some? ==> i <= r.value.index < |schema| && EntryHit(schema[r.value.index], name) == Some(r.value.kind)
    ensures r.Some? ==> forall j :: i <= j < r.value.index ==> EntryHit(schema[j], name).None?
    ensures r.None? ==> forall j :: i <= j < |schema| ==> EntryHit(schema[j], name).None?
    decreases |schema| - i
  {
    if i == |schema| then None
    else
      match EntryHit(schema[i], name)
      case Some(k) => Some(Hit(i, k))
      case None => ResolveFrom(schema, name, i + 1)
  }

  function Resolve(schema: seq<string>, name: string): Option<Hit> {
    ResolveFrom(schema, name, 0)
  }

  /** Line 292: the variable name, `prefix` and the declared name with its `*` dropped for a once-option. */
  function TargetName(prefix: string, entry: string, kind: Kind): (r: string)
    requires kind == Once ==> 0 < |entry|
    ensures |prefix| <= |r| && r[..|prefix|] == prefix
    ensures kind != Once ==> r[|prefix|..] == entry
    ensures kind == Once ==> [entry[0]] + r[|prefix|..] == entry
  {
    prefix + (if kind == Once then entry[1..] else entry)
  }

  /**
   * The variable a match names: the option's own name after the prefix
   * for an exact or once match; for a negated one, the declared name,
   * which is the option's name without its `no-` or `no`.
   */
  lemma {:induction false} ResolvedTarget(schema: seq<string>, prefix: string, name: string)
    requires Resolve(schema, name).Some?
    ensures var h := Resolve(schema, name).value;
      && (h.kind == Once ==> 0 < |schema[h.index]|)
      && (h.kind != Negated ==> TargetName(prefix, schema[h.index], h.kind) == prefix + name)
      && (h.kind == Negated ==>
            && TargetName(prefix, schema[h.index], h.kind) == prefix + schema[h.index]
            && (name == "no-" + schema[h.index] || name == "no" + schema[h.index]))
  {
    var h := Resolve(schema, name).value;
    EntryHitMeaning(schema[h.index], name);
    if h.kind == Once {
      assert schema[h.index] == "*" + name;
      assert schema[h.index][1..] == name;
    }
  }

  // ---------------------------------------------------------------------
  // The gates of lines 297-343 and the value of lines 345-365.

  /** `config_GetType`: the type of a declared variable, `NoType` for any other name. */
  function TypeOf(reg: Registry, name: string): VarType {
    if name in reg.types then reg.types[name] else NoType
  }

  /**
   * Lines 297-326: a name whose configuration entry has a replacement is
   * dropped when the replacement is `SUPPRESSED` or the entry is strict,
   * and is otherwise replaced by it.
   */
  function RouteOf(reg: Registry, name: string): (r: Route)
    ensures r.Drop? <==>
      name in reg.configs && reg.configs[name].current.Some?
      && (reg.configs[name].current.value == "SUPPRESSED" || reg.configs[name].strict)
    ensures r.Bind? && name in reg.configs && reg.configs[name].current.Some? ==>
      r.name == reg.configs[name].current.value
    ensures !(name in reg.configs && reg.configs[name].current.Some?) ==> r == Bind(name)
    ensures r.Bind? && r.name != name ==>
      name in reg.configs && reg.configs[name].current == Some(r.name) && !reg.configs[name].strict
  {
    if name in reg.configs && reg.configs[name].current.Some? then
      var e := reg.configs[name];
      if e.current.value == "SUPPRESSED" then Drop(Suppressed)
      else if e.strict then Drop(DeprecatedStrict)
      else Bind(e.current.value)
    else Bind(name)
  }

  /** Lines 345-365: the value set on a variable of type `t`; `yes` is cleared by a negated match. */
  function Coerce(reg: Registry, t: VarType, yes: bool, value: Option<string>): (v: Value)
    requires (t == StringType || t == ModuleType) ==> value.Some?
    ensures t == BoolType <==> v.BoolVal?
    ensures v.StringVal? <==> t == StringType || t == ModuleType
    ensures v.BoolVal? ==> v.b == yes
    ensures v.StringVal? ==> value == Some(v.text)
    ensures t == IntegerType ==> v.IntVal?
    ensures t == FloatType ==> v.FloatVal?
    ensures t == NoType || t == OtherType ==> v == ZeroVal
  {
    match t
    case BoolType => BoolVal(yes)
    case IntegerType => IntVal(reg.toInt(value.GetOr("0")))
    case FloatType => FloatVal(reg.toFloat(value.GetOr("0")))
    case StringType => StringVal(value.value)
    case ModuleType => StringVal(value.value)
    case _ => ZeroVal
  }

  /** `var_Get` of a string variable: its text, or the empty string when it holds none. */
  function CurrentText(store: Store, name: string): string {
    if name in store && store[name].StringVal? then store[name].text else ""
  }

  /** One pass of the loop of lines 249-385 over option `node`, with the variables as they are in `store`. */
  function BindNode(reg: Registry, schema: seq<string>, prefix: string, store: Store, node: Node): (o: Outcome)
    ensures node.name == "" <==> o == Skip(EmptyName)
    ensures o == Skip(UnknownOption) <==>
      node.name != "" && forall j :: 0 <= j < |schema| ==> EntryHit(schema[j], node.name).None?
    ensures o.Set? ==> Resolve(schema, node.name).Some? && TypeOf(reg, o.target) != NoType
    ensures o.Set? && TypeOf(reg, o.target) != BoolType ==> node.value.Some?
    ensures o.Set? && TypeOf(reg, o.target) == BoolType ==>
      o.value == BoolVal(Resolve(schema, node.name).value.kind != Negated)
    ensures o.Set? && (TypeOf(reg, o.target) == StringType || TypeOf(reg, o.target) == ModuleType) ==>
      o.value == StringVal(node.value.value)
    ensures o.Set? && Resolve(schema, node.name).value.kind == Once ==>
      TypeOf(reg, o.target) == StringType && CurrentText(store, o.target) == ""
  {
    if node.name == "" then Skip(EmptyName)
    else
      match Resolve(schema, node.name)
      case None => Skip(UnknownOption)
      case Some(hit) =>
        var entry := schema[hit.index];
        match RouteOf(reg, TargetName(prefix, entry, hit.kind))
        case Drop(reason) => Skip(reason)
        case Bind(name) =>
          var t := TypeOf(reg, name);
          if t == NoType then Skip(UnknownType)
          else if t != BoolType && node.value.None? then Skip(MissingValue)
          else if t != StringType && hit.kind == Once then Skip(OnceNeedsString)
          else if hit.kind == Once && CurrentText(store, name) != "" then Skip(NotFirstOccurrence)
          else Set(name, Coerce(reg, t, hit.kind != Negated, node.value))
  }

  /**
   * Lines 249-380 as one condition: an option sets a variable exactly when
   * it has a name, matches a declaration, is not retired, reaches a
   * variable of known type, has a value unless that type is bool, and,
   * for a `*` match, reaches an empty string variable; the variable is
   * the replacement name of a softly deprecated one, and otherwise the
   * prefixed declared name.
   */
  lemma BindNodeSetsIff(reg: Registry, schema: seq<string>, prefix: string, store: Store, node: Node)
    ensures var o := BindNode(reg, schema, prefix, store, node);
      o.Set? <==>
        && node.name != ""
        && Resolve(schema, node.name).Some?
        && var h := Resolve(schema, node.name).value;
           var route := RouteOf(reg, TargetName(prefix, schema[h.index], h.kind));
           && route.Bind?
           && TypeOf(reg, route.name) != NoType
           && (TypeOf(reg, route.name) != BoolType ==> node.value.Some?)
           && (h.kind == Once ==> TypeOf(reg, route.name) == StringType && CurrentText(store, route.name) == "")
    ensures var o := BindNode(reg, schema, prefix, store, node);
      o.Set? ==>
        var h := Resolve(schema, node.name).value;
        var target := TargetName(prefix, schema[h.index], h.kind);
        && (target in reg.configs && reg.configs[target].current.Some? ==> o.target == reg.configs[target].current.value)
        && (!(target in reg.configs && reg.configs[target].current.Some?) ==> o.target == target)
  {
  }

  /**
   * Lines 297-322: a retired option name is dropped, whatever its type
   * and value: `SUPPRESSED` first, then a strict deprecation.
   */
  lemma BindNodeRetired(reg: Registry, schema: seq<string>, prefix: string, store: Store, node: Node)
    requires node.name != "" && Resolve(schema, node.name).Some?
    requires var h := Resolve(schema, node.name).value;
      var target := TargetName(prefix, schema[h.index], h.kind);
      target in reg.configs && reg.configs[target].current.Some?
    ensures var h := Resolve(schema, node.name).value;
      var e := reg.configs[TargetName(prefix, schema[h.index], h.kind)];
      var o := BindNode(reg, schema, prefix, store, node);
      && (e.current == Some("SUPPRESSED") ==> o == Skip(Suppressed))
      && (e.current != Some("SUPPRESSED") && e.strict ==> o == Skip(DeprecatedStrict))
  {
  }

  /**
   * Lines 327-378: once an option reaches a variable, the checks on it are
   * made in this order, and the first that fails names the skip: the type
   * is unknown, a non-bool has no value, a `*` match reaches a non-string,
   * a `*` match reaches a string that already holds text.
   */
  lemma BindNodeGates(reg: Registry, schema: seq<string>, prefix: string, store: Store, node: Node)
    requires node.name != "" && Resolve(schema, node.name).Some?
    requires var h := Resolve(schema, node.name).value;
      RouteOf(reg, TargetName(prefix, schema[h.index], h.kind)).Bind?
    ensures var h := Resolve(schema, node.name).value;
      var v := RouteOf(reg, TargetName(prefix, schema[h.index], h.kind)).name;
      var t := TypeOf(reg, v);
      var o := BindNode(reg, schema, prefix, store, node);
      && (t == NoType ==> o == Skip(UnknownType))
      && (t != NoType && t != BoolType && node.value.None? ==> o == Skip(MissingValue))
      && (t != NoType && (t == BoolType || node.value.Some?) && t != StringType && h.kind == Once ==>
            o == Skip(OnceNeedsString))
      && (t == StringType && node.value.Some? && h.kind == Once && CurrentText(store, v) != "" ==>
            o == Skip(NotFirstOccurrence))
  {
  }

  // ---------------------------------------------------------------------
  // The loop over all options.

  /** The variables after outcome `o`: one `var_Set`, or none. */
  function Assign(store: Store, o: Outcome): (r: Store)
    ensures o.Set? ==> o.target in r && r[o.target] == o.value
    ensures forall t :: (o.Skip? || t != o.target) ==> (t in r <==> t in store) && (t in store ==> r[t] == store[t])
  {
    if o.Set? then store[o.target := o.value] else store
  }

  /** The variables that a run of outcomes writes. */
  function Targets(outs: seq<Outcome>): set<string> {
    set k | 0 <= k < |outs| && outs[k].Set? :: outs[k].target
  }

  lemma TargetsCons(o: Outcome, outs: seq<Outcome>)
    ensures Targets([o] + outs) == (if o.Set? then {o.target} else {}) + Targets(outs)
  {
    var all := [o] + outs;
    forall t | t in Targets(outs)
      ensures t in Targets(all)
    {
      var k :| 0 <= k < |outs| && outs[k].Set? && outs[k].target == t;
      assert all[k + 1] == outs[k];
    }
    forall t | t in Targets(all)
      ensures t in Targets(outs) || (o.Set? && t == o.target)
    {
      var k :| 0 <= k < |all| && all[k].Set? && all[k].target == t;
      if 0 < k {
        assert outs[k - 1] == all[k];
      }
    }
    if o.Set? {
      assert all[0] == o;
    }
  }

  /**
   * The shape of the loop of lines 249-385, for any per-option `step`:
   * the options are taken in input order, each against the variables as
   * the options before it left them, and the variables at the end differ
   * from those at the start only where some option set one.
   */
  function Thread(step: (Store, Node) -> Outcome, store: Store, nodes: seq<Node>): (r: (seq<Outcome>, Store))
    ensures |r.0| == |nodes|
    ensures forall t :: t !in Targets(r.0) ==> (t in r.1 <==> t in store) && (t in store ==> r.1[t] == store[t])
    ensures forall t :: t in Targets(r.0) ==> t in r.1
    decreases |nodes|
  {
    if |nodes| == 0 then ([], store)
    else
      var o := step(store, nodes[0]);
      var rest := Thread(step, Assign(store, o), nodes[1..]);
      TargetsCons(o, rest.0);
      ([o] + rest.0, rest.1)
  }

  /** Threading a list is threading its first part, then its second part from the variables the first left. */
  lemma {:induction false} ThreadAppend(step: (Store, Node) -> Outcome, store: Store, a: seq<Node>, b: seq<Node>)
    ensures var first := Thread(step, store, a);
      var second := Thread(step, first.1, b);
      Thread(step, store, a + b) == (first.0 + second.0, second.1)
    decreases |a|
  {
    if |a| == 0 {
      assert a + b == b;
      assert Thread(step, store, a) == ([], store);
      assert [] + Thread(step, store, b).0 == Thread(step, store, b).0;
    } else {
      var o := step(store, a[0]);
      assert (a + b)[0] == a[0];
      assert (a + b)[1..] == a[1..] + b;
      var s1 := Assign(store, o);
      var rest := Thread(step, s1, a[1..]);
      var second := Thread(step, rest.1, b);
      var tail := Thread(step, s1, a[1..] + b);
      ThreadAppend(step, s1, a[1..], b);
      assert tail == (rest.0 + second.0, second.1);
      assert Thread(step, store, a) == ([o] + rest.0, rest.1);
      assert Thread(step, store, a + b) == ([o] + tail.0, tail.1);
      assert [o] + (rest.0 + second.0) == ([o] + rest.0) + second.0;
    }
  }

  /**
   * Option `k` is decided exactly as it would be alone, against the
   * variables the options before it left: an earlier skip, for whatever
   * reason, does not stop it.
   */
  lemma ThreadStep(step: (Store, Node) -> Outcome, store: Store, nodes: seq<Node>, k: nat)
    requires k < |nodes|
    ensures var before := Thread(step, store, nodes[..k]).1;
      var o := Thread(step, store, nodes).0[k];
      && o == step(before, nodes[k])
      && Thread(step, store, nodes[..k + 1]).1 == Assign(before, o)
  {
    var before := Thread(step, store, nodes[..k]).1;
    assert nodes == nodes[..k] + nodes[k..];
    ThreadAppend(step, store, nodes[..k], nodes[k..]);
    assert nodes[..k + 1] == nodes[..k] + [nodes[k]];
    ThreadAppend(step, store, nodes[..k], [nodes[k]]);
    var o := step(before, nodes[k]);
    assert Thread(step, Assign(before, o), []) == ([], Assign(before, o));
    assert Thread(step, before, [nodes[k]]).0 == [o];
    assert nodes[k..][0] == nodes[k];
  }

  /** The value a variable ends with is the one the last option that set it gave. */
  lemma ThreadLastWrite(step: (Store, Node) -> Outcome, store: Store, nodes: seq<Node>, k: nat)
    requires k < |nodes|
    requires var outs := Thread(step, store, nodes).0;
      && outs[k].Set?
      && forall j :: k < j < |outs| ==> !(outs[j].Set? && outs[j].target == outs[k].target)
    ensures var r := Thread(step, store, nodes);
      r.0[k].target in r.1 && r.1[r.0[k].target] == r.0[k].value
  {
    var r := Thread(step, store, nodes);
    var t := r.0[k].target;
    var mid := Thread(step, store, nodes[..k + 1]).1;
    ThreadStep(step, store, nodes, k);
    assert t in mid && mid[t] == r.0[k].value;
    assert nodes == nodes[..k + 1] + nodes[k + 1..];
    ThreadAppend(step, store, nodes[..k + 1], nodes[k + 1..]);
    var first := Thread(step, store, nodes[..k + 1]);
    var second := Thread(step, mid, nodes[k + 1..]);
    assert r.0 == first.0 + second.0 && r.1 == second.1;
    assert second.0 == r.0[k + 1..];
    UntargetedSuffix(r.0, k + 1, t);
  }

  /** No outcome from index `n` on sets `t`, so `t` is not among the suffix's targets. */
  lemma UntargetedSuffix(outs: seq<Outcome>, n: nat, t: string)
    requires n <= |outs|
    requires forall j :: n <= j < |outs| ==> !(outs[j].Set? && outs[j].target == t)
    ensures t !in Targets(outs[n..])
  {
    forall j | 0 <= j < |outs[n..]|
      ensures !(outs[n..][j].Set? && outs[n..][j].target == t)
    {
      assert outs[n..][j] == outs[n + j];
    }
  }

  /** The binder's step: `BindNode` with the declarations, prefix and registry fixed. */
  function BindStep(reg: Registry, schema: seq<string>, prefix: string): (Store, Node) -> Outcome {
    (store, node) => BindNode(reg, schema, prefix, store, node)
  }

  /**
   * `__config_ChainParse` after its variables exist (lines 246-385): the
   * options bound in order, with a missing prefix read as the empty one.
   */
  function BindChain(reg: Registry, schema: seq<string>, prefix: Option<string>, store: Store, options: seq<Node>): (r: (seq<Outcome>, Store))
    ensures prefix.None? ==> r == Thread(BindStep(reg, schema, ""), store, options)
    ensures |r.0| == |options|
  {
    Thread(BindStep(reg, schema, prefix.GetOr("")), store, options)
  }

  /** A string variable with a non-empty text keeps one, whatever parsed options are bound after. */
  lemma {:induction false} TextStaysNonEmpty(reg: Registry, schema: seq<string>, prefix: string, store: Store, nodes: seq<Node>, t: string)
    requires TypeOf(reg, t) == StringType && CurrentText(store, t) != ""
    requires forall k :: 0 <= k < |nodes| ==> ValidNode(nodes[k])
    ensures CurrentText(Thread(BindStep(reg, schema, prefix), store, nodes).1, t) != ""
    decreases |nodes|
  {
    if 0 < |nodes| {
      var o := BindNode(reg, schema, prefix, store, nodes[0]);
      var next := Assign(store, o);
      assert ValidNode(nodes[0]);
      assert CurrentText(next, t) != "";
      TextStaysNonEmpty(reg, schema, prefix, next, nodes[1..], t);
    }
  }

  /** Whether option `name` matches a `*` declaration first. */
  predicate IsOnceOption(schema: seq<string>, name: string) {
    Resolve(schema, name).Some? && Resolve(schema, name).value.kind == Once
  }

  /** A once-option that sets its variable leaves it holding its own, non-empty, text. */
  lemma OnceMarks(reg: Registry, schema: seq<string>, prefix: string, store: Store, node: Node)
    requires ValidNode(node) && IsOnceOption(schema, node.name)
    requires BindNode(reg, schema, prefix, store, node).Set?
    ensures var o := BindNode(reg, schema, prefix, store, node);
      TypeOf(reg, o.target) == StringType && CurrentText(Assign(store, o), o.target) == node.value.value != ""
  {
  }

  /** Lines 366-373: a once-option is refused by a variable that already holds text. */
  lemma OnceBlocked(reg: Registry, schema: seq<string>, prefix: string, store: Store, node: Node, t: string)
    requires IsOnceOption(schema, node.name) && CurrentText(store, t) != ""
    ensures var o := BindNode(reg, schema, prefix, store, node);
      !(o.Set? && o.target == t)
  {
  }

  /** Running the options up to `j` is running those up to `i`, then those from `i` to `j`. */
  lemma ThreadSplit(step: (Store, Node) -> Outcome, store: Store, nodes: seq<Node>, i: nat, j: nat)
    requires i <= j <= |nodes|
    ensures Thread(step, store, nodes[..j]).1 == Thread(step, Thread(step, store, nodes[..i]).1, nodes[i..j]).1
  {
    assert nodes[..j] == nodes[..i] + nodes[i..j];
    ThreadAppend(step, store, nodes[..i], nodes[i..j]);
  }

  lemma ValidSlice(nodes: seq<Node>, i: nat, j: nat)
    requires i <= j <= |nodes|
    requires forall k :: 0 <= k < |nodes| ==> ValidNode(nodes[k])
    ensures forall k :: 0 <= k < |nodes[i..j]| ==> ValidNode(nodes[i..j][k])
  {
  }

  /**
   * Lines 366-377: once an option that reaches a variable by a `*` match
   * has set it, no later such option sets it, because the variable is no
   * longer empty.  An earlier one that was skipped (for a missing value,
   * say) does not count: the first to set it need not be the first seen.
   */
  lemma OnceSetsOnce(reg: Registry, schema: seq<string>, prefix: string, store: Store, nodes: seq<Node>, i: nat, j: nat)
    requires forall k :: 0 <= k < |nodes| ==> ValidNode(nodes[k])
    requires i < j < |nodes|
    requires IsOnceOption(schema, nodes[i].name)
    requires Thread(BindStep(reg, schema, prefix), store, nodes).0[i].Set?
    ensures var outs := Thread(BindStep(reg, schema, prefix), store, nodes).0;
      outs[j].Set? && outs[j].target == outs[i].target ==> !IsOnceOption(schema, nodes[j].name)
  {
    var step := BindStep(reg, schema, prefix);
    var outs := Thread(step, store, nodes).0;
    var t := outs[i].target;
    var before := Thread(step, store, nodes[..i]).1;
    var mid := Thread(step, store, nodes[..i + 1]).1;
    ThreadStep(step, store, nodes, i);
    assert outs[i] == BindNode(reg, schema, prefix, before, nodes[i]);
    assert ValidNode(nodes[i]);
    OnceMarks(reg, schema, prefix, before, nodes[i]);
    assert TypeOf(reg, t) == StringType && CurrentText(mid, t) != "";
    ValidSlice(nodes, i + 1, j);
    TextStaysNonEmpty(reg, schema, prefix, mid, nodes[i + 1..j], t);
    ThreadSplit(step, store, nodes, i + 1, j);
    var last := Thread(step, store, nodes[..j]).1;
    assert CurrentText(last, t) != "";
    ThreadStep(step, store, nodes, j);
    assert outs[j] == BindNode(reg, schema, prefix, last, nodes[j]);
    if IsOnceOption(schema, nodes[j].name) {
      OnceBlocked(reg, schema, prefix, last, nodes[j], t);
    }
  }
}

=== FILE: chain_examples.dfy ===
/**
 * Worked cases of the parser and the binder on concrete chains.
 */
module ChainExamples {
  import opened Wrappers
  import opened ChainScan
  import opened ChainParse
  import opened ChainRender
  import opened ChainBind

  /** The rendering of a chain that `ParseRender` applies to. */
  predicate RendersAs(name: string, nodes: seq<Node>, rest: Option<string>, text: string) {
    && ValidModuleName(name)
    && (forall k :: 0 <= k < |nodes| ==> RenderableNode(nodes[k]))
    && Render(name, nodes, rest) == text
  }

  lemma FirstOfTwoText()
    ensures RendersAs("a", [Node("x", Some("1"))], Some("b{y=2}"), "a{x=1}:b{y=2}")
  {
  }

  /** A chain with a remainder: the first module's options, and the rest of the text after `:`. */
  lemma FirstOfTwo()
    ensures ChainCreate(Some("a{x=1}:b{y=2}")) == Chain(Some("a"), [Node("x", Some("1"))], Some("b{y=2}"))
  {
    FirstOfTwoText();
    ParseRender("a", [Node("x", Some("1"))], Some("b{y=2}"));
  }

  lemma SecondOfTwoText()
    ensures RendersAs("b", [Node("y", Some("2"))], None, "b{y=2}")
  {
  }

  /** Parsing the remainder of `FirstOfTwo` gives the second module, with nothing left. */
  lemma SecondOfTwo()
    ensures ChainCreate(Some("b{y=2}")) == Chain(Some("b"), [Node("y", Some("2"))], None)
  {
    SecondOfTwoText();
    ParseRender("b", [Node("y", Some("2"))], None);
  }

  lemma QuotedText()
    ensures RendersAs("mod", [Node("a", Some("x,y}z"))], None, "mod{a=\"x,y}z\"}")
  {
    var v := "x,y}z";
    assert !IsBare(v) by {
      assert v[1] == ',';
    }
    assert EncodeValue(v) == "\"x,y}z\"";
  }

  /** A quoted value keeps the `,` and `}` inside its quotes. */
  lemma QuotedSeparators()
    ensures ChainCreate(Some("mod{a=\"x,y}z\"}")) == Chain(Some("mod"), [Node("a", Some("x,y}z"))], None)
  {
    QuotedText();
    ParseRender("mod", [Node("a", Some("x,y}z"))], None);
  }

  lemma ColonInGroupText()
    ensures RendersAs("m", [Node("x", Some("1:y=2"))], None, "m{x=1:y=2}")
  {
    var v := "1:y=2";
    assert IsBare(v);
    assert EncodeValue(v) == v;
  }

  /**
   * Options are separated by `,`, not by the `:` of the format comment at
   * lines 40-41: inside a group, `x=1:y=2` is one option whose value runs
   * on to the `}`.
   */
  lemma ColonInGroup()
    ensures ChainCreate(Some("m{x=1:y=2}")) == Chain(Some("m"), [Node("x", Some("1:y=2"))], None)
  {
    ColonInGroupText();
    ParseRender("m", [Node("x", Some("1:y=2"))], None);
  }

  /**
   * The facts `ChainCreateGroup` needs about where the module name of `s`
   * ends (at `b`, just before a `{`) and what follows the group's cursor.
   */
  predicate HeadAt(s: string, b: nat, name: string, cursor: nat, after: char) {
    && 0 < b < |s| && s[b] == '{' && s[..b] == name
    && SkipSpace(s, 0) == 0 && ModuleNameEnd(s, 0) == b && SkipSpace(s, b) == b
    && At(s, cursor) == after
  }

  /** A chain with a group and no remainder, read off `HeadAt` and the group. */
  lemma ChainWithGroup(s: string, b: nat, name: string, g: GroupResult, after: char)
    requires HeadAt(s, b, name, g.cursor, after) && after != ':'
    requires Group(s, b + 1) == g
    ensures ChainCreate(Some(s)) == Chain(Some(name), g.nodes, None)
  {
    ChainCreateGroup(s, b, g);
  }

  lemma EmptyFirstNameHead()
    ensures HeadAt("mod{=1}", 3, "mod", 4, '=')
  {
    var s := "mod{=1}";
    assert SkipSpace(s, 0) == 0;
    assert ModuleNameEnd(s, 0) == 3;
    assert SkipSpace(s, 3) == 3;
    assert s[..3] == "mod";
  }

  /** An empty option name ends the group at once: no options, and no remainder either. */
  lemma EmptyFirstName()
    ensures ChainCreate(Some("mod{=1}")) == Chain(Some("mod"), [], None)
  {
    var s := "mod{=1}";
    EmptyFirstNameHead();
    assert Group(s, 4) == GroupResult([], 4);
    ChainWithGroup(s, 3, "mod", GroupResult([], 4), '=');
  }

  lemma EmptyGroupHead()
    ensures HeadAt("a{}:b", 1, "a", 2, '}')
  {
    var s := "a{}:b";
    assert SkipSpace(s, 0) == 0;
    assert ModuleNameEnd(s, 0) == 1;
    assert SkipSpace(s, 1) == 1;
    assert s[..1] == "a";
  }

  /** An empty group stops at its `}`, which is not a `:`: the text after it is not kept. */
  lemma EmptyGroupDropsRest()
    ensures ChainCreate(Some("a{}:b")) == Chain(Some("a"), [], None)
  {
    var s := "a{}:b";
    EmptyGroupHead();
    assert Group(s, 2) == GroupResult([], 2);
    ChainWithGroup(s, 1, "a", GroupResult([], 2), '}');
  }

  /** Blanks after the module name are skipped before the `:` (line 97): `a :b` keeps `b`. */
  lemma BlankBeforeColon()
    ensures ChainCreate(Some("a :b")) == Chain(Some("a"), [], Some("b"))
  {
    var s := "a :b";
    ChainCreateNoName(s);
    assert SkipSpace(s, 0) == 0;
    assert ModuleNameEnd(s, 0) == 1;
    assert SkipSpace(s, 1) == 2;
    ChainCreateNamed(s);
    assert s[..1] == "a" && s[3..] == "b";
    assert ChainAfterName(s, 1, 2) == Chain(Some("a"), [], Some("b"));
  }

  /** In `a{x=1} :b` no `:` follows a `}` directly. */
  lemma NoColonAfterBrace()
    ensures var s := "a{x=1} :b";
      forall k :: 0 < k < |s| && s[k] == ':' ==> s[k - 1] != '}'
  {
    var s := "a{x=1} :b";
    forall k | 0 < k < |s| && s[k] == ':'
      ensures s[k - 1] != '}'
    {
      assert k == 1 || k == 2 || k == 3 || k == 4 || k == 5 || k == 6 || k == 7 || k == 8;
    }
  }

  /** Blanks after the group's `}` are not skipped (lines 198-206): the `:` of `a{x=1} :b` is not seen. */
  lemma BlankAfterGroup()
    ensures ChainCreate(Some("a{x=1} :b")).rest.None?
  {
    var s := "a{x=1} :b";
    ChainCreateNoName(s);
    assert SkipSpace(s, 0) == 0;
    assert ModuleNameEnd(s, 0) == 1;
    assert SkipSpace(s, 1) == 1;
    assert AfterModuleName(s) == 1;
    ChainCreateRestGroup(s);
    NoColonAfterBrace();
  }

  /** The group of `m{a =1}`, opened at offset 1. */
  lemma BlankBeforeEqualsOptions()
    ensures Group("m{a =1}", 2) == GroupResult([Node("a", Some("1"))], 7)
  {
    var s := "m{a =1}";
    assert OptionNameEnd(s, 2) == 3;
    assert SkipSpace(s, 2) == 2 && SkipSpace(s, 3) == 4;
    assert ChainEnd(s, 5) == 6;
    assert SkipSpace(s, 5) == 5 && TrimEnd(s, 5, 6) == 6;
    assert s[5..6] == "1" && s[2..3] == "a";
    assert ShapeValue(s, 5, 6, false) == Some("1");
    assert SkipSpace(s, 6) == 6;
    assert OptionValue(s, 4) == ValueResult(Some("1"), 6);
    assert OptionAt(s, 2) == (Node("a", Some("1")), 6);
  }

  /** Blanks between an option name and its `=` are skipped (line 125): `m{a =1}` gives `a=1`. */
  lemma BlankBeforeEquals()
    ensures ChainCreate(Some("m{a =1}")) == Chain(Some("m"), [Node("a", Some("1"))], None)
  {
    var s := "m{a =1}";
    assert SkipSpace(s, 0) == 0;
    assert ModuleNameEnd(s, 0) == 1;
    assert SkipSpace(s, 1) == 1;
    assert s[..1] == "m";
    BlankBeforeEqualsOptions();
    ChainWithGroup(s, 1, "m", GroupResult([Node("a", Some("1"))], 7), '\0');
  }

  /** The group of `a {x=1}`, opened at offset 2. */
  lemma BlankBeforeGroupOptions()
    ensures Group("a {x=1}", 3) == GroupResult([Node("x", Some("1"))], 7)
  {
    var s := "a {x=1}";
    assert OptionNameEnd(s, 3) == 4;
    assert SkipSpace(s, 3) == 3 && SkipSpace(s, 4) == 4;
    assert ChainEnd(s, 5) == 6;
    assert SkipSpace(s, 5) == 5 && TrimEnd(s, 5, 6) == 6;
    assert s[5..6] == "1" && s[3..4] == "x";
    assert ShapeValue(s, 5, 6, false) == Some("1");
    assert SkipSpace(s, 6) == 6;
    assert OptionAt(s, 3) == (Node("x", Some("1")), 6);
  }

  /** Blanks between the module name and its `{` are skipped (lines 97-99): `a {x=1}` gives `x=1`. */
  lemma BlankBeforeGroup()
    ensures ChainCreate(Some("a {x=1}")) == Chain(Some("a"), [Node("x", Some("1"))], None)
  {
    var s := "a {x=1}";
    ChainCreateNoName(s);
    assert SkipSpace(s, 0) == 0;
    assert ModuleNameEnd(s, 0) == 1;
    assert SkipSpace(s, 1) == 2;
    assert s[..1] == "a";
    BlankBeforeGroupOptions();
    ChainCreateGroupAfterBlanks(s);
    ChainCreateNamed(s);
  }

  /** The group of `m{a=1,}:b`, opened at offset 1. */
  lemma TrailingCommaOptions()
    ensures Group("m{a=1,}:b", 2) == GroupResult([Node("a", Some("1"))], 7)
  {
    var s := "m{a=1,}:b";
    assert OptionNameEnd(s, 2) == 3;
    assert SkipSpace(s, 2) == 2 && SkipSpace(s, 3) == 3;
    assert ChainEnd(s, 4) == 5;
    assert SkipSpace(s, 4) == 4 && TrimEnd(s, 4, 5) == 5;
    assert s[4..5] == "1" && s[2..3] == "a";
    assert ShapeValue(s, 4, 5, false) == Some("1");
    assert SkipSpace(s, 5) == 5;
    assert OptionValue(s, 3) == ValueResult(Some("1"), 5);
    assert OptionAt(s, 2) == (Node("a", Some("1")), 6);
  }

  /** A `,` directly before `}` still closes the group (lines 196-201): `m{a=1,}:b` keeps the remainder `b`. */
  lemma TrailingComma()
    ensures ChainCreate(Some("m{a=1,}:b")) == Chain(Some("m"), [Node("a", Some("1"))], Some("b"))
  {
    var s := "m{a=1,}:b";
    assert SkipSpace(s, 0) == 0;
    assert ModuleNameEnd(s, 0) == 1;
    assert SkipSpace(s, 1) == 1;
    assert s[..1] == "m" && s[8..] == "b";
    TrailingCommaOptions();
    ChainCreateGroup(s, 1, GroupResult([Node("a", Some("1"))], 7));
    RestAtIs(s, 7, Some("b"));
  }

  /** The text of `BareValueTrimmed`. */
  function SpacedText(): string {
    "m{a= 1 }"
  }

  /** The value of `SpacedText` spans from after the `=` to the `}`; its blanks are then trimmed. */
  lemma SpacedValue()
    ensures OptionValue(SpacedText(), 3) == ValueResult(Some("1"), 7)
  {
    var s := SpacedText();
    assert ChainEnd(s, 4) == 7;
    assert SkipSpace(s, 4) == 5;
    assert TrimEnd(s, 5, 7) == 6;
    assert !IsQuote(s[5]) && s[5] != '{' && s[5..6] == "1";
    assert ShapeValue(s, 4, 7, false) == Some("1");
    assert SkipSpace(s, 7) == 7;
  }

  lemma SpacedOption()
    ensures OptionAt(SpacedText(), 2) == (Node("a", Some("1")), 7)
  {
    var s := SpacedText();
    assert OptionNameEnd(s, 2) == 3;
    assert SkipSpace(s, 3) == 3;
    SpacedValue();
    assert s[2..3] == "a" && At(s, 7) == '}';
  }

  lemma SpacedGroup()
    ensures Group(SpacedText(), 2) == GroupResult([Node("a", Some("1"))], 8)
  {
    var s := SpacedText();
    SpacedOption();
    assert SkipSpace(s, 2) == 2 && OptionNameEnd(s, 2) != 2;
  }

  lemma SpacedHead()
    ensures HeadAt(SpacedText(), 1, "m", 8, '\0')
  {
    var s := SpacedText();
    assert SkipSpace(s, 0) == 0;
    assert ModuleNameEnd(s, 0) == 1;
    assert SkipSpace(s, 1) == 1;
    assert s[..1] == "m" && |s| == 8;
  }

  /** A bare value loses the blanks around it. */
  lemma BareValueTrimmed()
    ensures ChainCreate(Some("m{a= 1 }")) == Chain(Some("m"), [Node("a", Some("1"))], None)
  {
    SpacedHead();
    SpacedGroup();
    ChainWithGroup(SpacedText(), 1, "m", GroupResult([Node("a", Some("1"))], 8), '\0');
  }

  /** The text of `BracesKept`. */
  function NestedText(): string {
    "m{a{b=1}}"
  }

  /** A `{` right after an option name starts a value that keeps its braces. */
  lemma NestedValue()
    ensures OptionValue(NestedText(), 3) == ValueResult(Some("{b=1}"), 8)
  {
    var s := NestedText();
    assert ChainEnd(s, 3) == 8;
    assert SkipSpace(s, 3) == 3;
    assert TrimEnd(s, 3, 8) == 8;
    assert !IsQuote(s[3]) && s[3..8] == "{b=1}";
    assert ShapeValue(s, 3, 8, true) == Some("{b=1}");
    assert SkipSpace(s, 8) == 8;
  }

  lemma NestedGroup()
    ensures Group(NestedText(), 2) == GroupResult([Node("a", Some("{b=1}"))], 9)
  {
    var s := NestedText();
    assert OptionNameEnd(s, 2) == 3;
    assert SkipSpace(s, 2) == 2 && SkipSpace(s, 3) == 3;
    NestedValue();
    assert s[2..3] == "a" && At(s, 8) == '}';
    assert OptionAt(s, 2) == (Node("a", Some("{b=1}")), 8);
  }

  lemma NestedHead()
    ensures HeadAt(NestedText(), 1, "m", 9, '\0')
  {
    var s := NestedText();
    assert SkipSpace(s, 0) == 0;
    assert ModuleNameEnd(s, 0) == 1;
    assert SkipSpace(s, 1) == 1;
    assert s[..1] == "m" && |s| == 9;
  }

  /** `m{a{b=1}}`: the option `a` has the value `{b=1}`, braces and all. */
  lemma BracesKept()
    ensures ChainCreate(Some("m{a{b=1}}")) == Chain(Some("m"), [Node("a", Some("{b=1}"))], None)
  {
    NestedHead();
    NestedGroup();
    ChainWithGroup(NestedText(), 1, "m", GroupResult([Node("a", Some("{b=1}"))], 9), '\0');
  }

  // ---------------------------------------------------------------------
  // Binding.

  /** A registry with the given entries and types, reading every number as zero. */
  function SampleRegistry(configs: map<string, ConfigEntry>, types: map<string, VarType>): Registry {
    Registry(configs, types, _ => 0, _ => 0.0)
  }

  /** Declarations are tried one at a time: `noa` is the negation of the earlier `a` before it is the later `noa`. */
  lemma NegationOfEarlierEntryWins()
    ensures Resolve(["a", "noa"], "noa") == Some(Hit(0, Negated))
  {
    assert "noa"[..2] == "no" && "noa"[2..] == "a";
    assert EntryHit("a", "noa") == Some(Negated);
  }

  /** `no-fs` on a boolean `fs` under prefix `sout-` sets `sout-fs` to false. */
  lemma NegatedBool()
    ensures BindNode(SampleRegistry(map[], map["sout-fs" := BoolType]), ["fs"], "sout-", map[], Node("no-fs", None))
      == Set("sout-fs", BoolVal(false))
  {
    assert "no-fs"[..3] == "no-" && "no-fs"[3..] == "fs";
    assert EntryHit("fs", "no-fs") == Some(Negated);
    assert Resolve(["fs"], "no-fs") == Some(Hit(0, Negated));
    assert TargetName("sout-", "fs", Negated) == "sout-fs";
  }

  /** A softly deprecated name passes its value on to the name that replaces it. */
  lemma SoftDeprecation()
    ensures BindNode(SampleRegistry(map["x-old" := ConfigEntry(Some("x-new"), false)], map["x-new" := StringType]),
                     ["old"], "x-", map[], Node("old", Some("5")))
      == Set("x-new", StringVal("5"))
  {
    assert Resolve(["old"], "old") == Some(Hit(0, Exact));
    assert TargetName("x-", "old", Exact) == "x-old";
  }

  /** Two options for the same `*` declaration: the first sets the variable, the second is refused. */
  lemma OnceTwice()
    ensures var reg := SampleRegistry(map[], map["x-dst" := StringType]);
      Thread(BindStep(reg, ["*dst"], "x-"), map[], [Node("dst", Some("a")), Node("dst", Some("b"))]).0
        == [Set("x-dst", StringVal("a")), Skip(NotFirstOccurrence)]
  {
    var reg := SampleRegistry(map[], map["x-dst" := StringType]);
    var step := BindStep(reg, ["*dst"], "x-");
    var nodes := [Node("dst", Some("a")), Node("dst", Some("b"))];
    assert "*dst"[1..] == "dst";
    assert Resolve(["*dst"], "dst") == Some(Hit(0, Once));
    assert TargetName("x-", "*dst", Once) == "x-dst";
    var o1 := step(map[], nodes[0]);
    assert o1 == Set("x-dst", StringVal("a"));
    var s1 := Assign(map[], o1);
    assert CurrentText(s1, "x-dst") == "a";
    var o2 := step(s1, nodes[1]);
    assert o2 == Skip(NotFirstOccurrence);
    assert nodes[1..][1..] == [];
    assert Thread(step, s1, nodes[1..]).0 == [o2];
  }
}

=== FILE: chain_parse.dfy ===
/**
 * `config_ChainCreate`: split `name{opt=val,...}:rest` into the module
 * name, the ordered option list and the unconsumed remainder.
 *
 * The source's singly linked `config_chain_t` list is a sequence here; the
 * cursor `p` is an index, with `|s|` standing for the terminating NUL.
 */
module ChainParse {
  import opened Wrappers
  import opened ChainScan

  /** One option of the group: its name and its value, `None` where the source stores NULL. */
  datatype Node = Node(name: string, value: Option<string>)

  /** The three results of one parse: module name, options in input order, text after the `:`. */
  datatype Chain = Chain(name: Option<string>, options: seq<Node>, rest: Option<string>)

  /** `*p`: the character at the cursor, NUL at the end. */
  function At(s: string, i: nat): char {
    if i < |s| then s[i] else '\0'
  }

  predicate IsModuleNameStop(c: char) {
    c == '{' || c == ':' || IsBlank(c)
  }

  predicate IsOptionNameStop(c: char) {
    c == '=' || c == ',' || c == '{' || c == '}' || IsBlank(c)
  }

  /** The end of the module name that starts at `i`: the first `{`, `:` or blank, or the end. */
  function ModuleNameEnd(s: string, i: nat): (j: nat)
    requires i <= |s|
    ensures i <= j <= |s|
    ensures forall m :: i <= m < j ==> !IsModuleNameStop(s[m])
    ensures j == |s| || IsModuleNameStop(s[j])
    decreases |s| - i
  {
    if i < |s| && !IsModuleNameStop(s[i]) then ModuleNameEnd(s, i + 1) else i
  }

  /** The end of the option name that starts at `i`: the first `=`, `,`, `{`, `}` or blank, or the end. */
  function OptionNameEnd(s: string, i: nat): (j: nat)
    requires i <= |s|
    ensures i <= j <= |s|
    ensures forall m :: i <= m < j ==> !IsOptionNameStop(s[m])
    ensures j == |s| || IsOptionNameStop(s[j])
    decreases |s| - i
  {
    if i < |s| && !IsOptionNameStop(s[i]) then OptionNameEnd(s, i + 1) else i
  }

  /** A name the option loop accepts: non-empty and free of its stop characters. */
  predicate ValidName(n: string) {
    |n| > 0 && forall k :: 0 <= k < |n| ==> !IsOptionNameStop(n[k])
  }

  /** A node the parser can build: a valid name, and a value that is never the empty string. */
  predicate ValidNode(n: Node) {
    ValidName(n.name) && (n.value.Some? ==> |n.value.value| > 0)
  }

  /** Whether a value span starting with `c` is unwrapped by dropping its first and last character. */
  predicate Delimited(c: char, keepBrackets: bool) {
    IsQuote(c) || (!keepBrackets && c == '{')
  }

  /**
   * The value of an option whose text starts at `p` and whose span, as the
   * scanner found it, ends at `end` (lines 135-170).  An empty result is
   * `None`; `ShapeValueCases` states which text is kept.
   */
  function ShapeValue(s: string, p: nat, end: nat, keepBrackets: bool): (v: Option<string>)
    requires p <= end <= |s|
    ensures v.Some? ==> 0 < |v.value| <= end - p
  {
    if end <= p then None
    else
      var q := SkipSpace(s, p);
      if end <= q then None
      else if IsQuote(s[q]) || (!keepBrackets && s[q] == '{') then
        var b := q + 1;
        var e := if s[end - 1] != '\'' && s[end - 1] == '"' then TrimEnd(s, b, end) else end;
        if e <= b + 1 then None else Some(s[b..e - 1])
      else
        var e := TrimEnd(s, q, end);
        if e <= q then None else Some(s[q..e])
  }

  /**
   * Which text `ShapeValue` keeps.  After the leading blanks (at `q`), a
   * span that opens with a quote, or with a `{` reached through `=`, loses
   * its first and last character: the trailing-blank trim there only runs
   * when the last character is `"`, so it never removes anything, and the
   * last character goes whether or not it closes the span.  Any other span
   * is kept with its trailing blanks removed.  The value is absent exactly
   * when the span is blank, or is delimited and shorter than three.
   */
  lemma ShapeValueCases(s: string, p: nat, end: nat, keepBrackets: bool)
    requires p <= end <= |s|
    ensures var q := SkipSpace(s, p); var v := ShapeValue(s, p, end, keepBrackets);
      v.None? <==> end <= q || (Delimited(s[q], keepBrackets) && end - q < 3)
    ensures var q := SkipSpace(s, p); var v := ShapeValue(s, p, end, keepBrackets);
      q < end && Delimited(s[q], keepBrackets) && end - q >= 3 ==> v == Some(s[q + 1..end - 1])
    ensures var q := SkipSpace(s, p); var v := ShapeValue(s, p, end, keepBrackets);
      q < end && !Delimited(s[q], keepBrackets) ==>
        && v.Some?
        && q + |v.value| <= end
        && v.value == s[q..q + |v.value|]
        && !IsBlank(v.value[0])
        && !IsBlank(v.value[|v.value| - 1])
        && (forall m :: q + |v.value| <= m < end ==> IsBlank(s[m]))
  {
  }

  /** A parsed value and the cursor after it and the blanks that follow it. */
  datatype ValueResult = ValueResult(value: Option<string>, cursor: nat)

  /**
   * Lines 127-178 at cursor `c` (just after the option name and its
   * blanks): a value follows only when the cursor is at `=` or `{`; its
   * span is found by the scanner, from after the `=` or from the `{` itself.
   */
  function OptionValue(s: string, c: nat): (r: ValueResult)
    requires c <= |s|
    ensures c <= r.cursor <= |s|
    ensures At(s, c) != '=' && At(s, c) != '{' ==> r == ValueResult(None, c)
    ensures At(s, c) == '=' || At(s, c) == '{' ==> r.cursor == |s| || !IsBlank(s[r.cursor])
    ensures r.value.Some? ==> |r.value.value| > 0
  {
    if At(s, c) == '=' || At(s, c) == '{' then
      var keepBrackets := At(s, c) == '{';
      var v := if At(s, c) == '=' then c + 1 else c;
      var end := ChainEnd(s, v);
      ValueResult(ShapeValue(s, v, end, keepBrackets), SkipSpace(s, end))
    else
      ValueResult(None, c)
  }

  /**
   * Line 130: a `{` straight after the name starts a value that keeps its
   * braces, and a value that closes with its `}` is the whole brace span;
   * after `=`, a span that opens with `{` (past any blanks) loses its first
   * and last character, like a quoted one.
   */
  lemma {:induction false} OptionValueBrackets(s: string, c: nat)
    requires c <= |s|
    ensures At(s, c) == '{' ==>
      var r := OptionValue(s, c);
      && r.value.Some?
      && r.value.value[0] == '{'
      && c + |r.value.value| <= Braced(s, c + 1)
      && r.value.value == s[c..c + |r.value.value|]
    ensures At(s, c) == '{' ==>
      var e := Braced(s, c + 1);
      s[e - 1] == '}' ==> OptionValue(s, c).value == Some(s[c..e])
    ensures At(s, c) == '=' ==>
      var q := SkipSpace(s, c + 1); var end := ChainEnd(s, c + 1);
      q < end && s[q] == '{' && end - q >= 3 ==> OptionValue(s, c).value == Some(s[q + 1..end - 1])
  {
    if At(s, c) == '{' {
      OptionValueKeepsBraces(s, c);
    } else if At(s, c) == '=' {
      OptionValueUnwraps(s, c);
    }
  }

  /** The `{` half of `OptionValueBrackets`: the value is read from the `{` itself, with brackets kept. */
  lemma {:induction false} OptionValueKeepsBraces(s: string, c: nat)
    requires c < |s| && s[c] == '{'
    ensures var v := OptionValue(s, c).value; var e := Braced(s, c + 1);
      && v.Some? && v.value[0] == '{' && c + |v.value| <= e && v.value == s[c..c + |v.value|]
      && (s[e - 1] == '}' ==> v == Some(s[c..e]))
  {
    var e := Braced(s, c + 1);
    assert SkipSpace(s, c) == c;
    assert ChainEnd(s, c) == e;
    assert OptionValue(s, c).value == ShapeValue(s, c, e, true);
    BracedValueShape(s, c, e);
  }

  /** The `=` half of `OptionValueBrackets`: a `{`-opened span after `=` is unwrapped. */
  lemma {:induction false} OptionValueUnwraps(s: string, c: nat)
    requires c < |s| && s[c] == '='
    ensures var q := SkipSpace(s, c + 1); var end := ChainEnd(s, c + 1);
      q < end && s[q] == '{' && end - q >= 3 ==> OptionValue(s, c).value == Some(s[q + 1..end - 1])
  {
    assert OptionValue(s, c).value == ShapeValue(s, c + 1, ChainEnd(s, c + 1), false);
    ShapeValueCases(s, c + 1, ChainEnd(s, c + 1), false);
  }

  /** A span that opens with `{` and keeps its brackets is kept, trailing blanks aside. */
  lemma {:induction false} BracedValueShape(s: string, c: nat, e: nat)
    requires c < e <= |s| && s[c] == '{'
    ensures var v := ShapeValue(s, c, e, true);
      && v.Some? && v.value[0] == '{' && c + |v.value| <= e && v.value == s[c..c + |v.value|]
      && (s[e - 1] == '}' ==> v == Some(s[c..e]))
  {
    assert SkipSpace(s, c) == c;
    ShapeValueCases(s, c, e, true);
    if s[e - 1] == '}' {
      assert TrimEnd(s, c, e) == e;
    }
  }

  /** The options of a group and the cursor where the option loop left off. */
  datatype GroupResult = GroupResult(nodes: seq<Node>, cursor: nat)

  /**
   * Where the option loop may stop: just after a `}`, or at a character
   * that ends an empty option name (never a `:`).
   */
  predicate LoopExit(s: string, cursor: nat) {
    (0 < cursor <= |s| && s[cursor - 1] == '}') || At(s, cursor) in {'=', ',', '{', '}', '\0'}
  }

  lemma NameSliceValid(s: string, a: nat, b: nat)
    requires a < b <= |s|
    requires forall m :: a <= m < b ==> !IsOptionNameStop(s[m])
    ensures ValidName(s[a..b])
  {
    forall k | 0 <= k < b - a
      ensures !IsOptionNameStop(s[a..b][k])
    {
      assert s[a..b][k] == s[a + k];
    }
  }

  /**
   * The option whose name starts at `a` (a character that does not end a
   * name), and the cursor after its value, the blanks after that and an
   * optional `,`.
   */
  function OptionAt(s: string, a: nat): (r: (Node, nat))
    requires a < |s| && !IsOptionNameStop(s[a])
    ensures ValidNode(r.0) && r.0.name == s[a..OptionNameEnd(s, a)]
    ensures OptionNameEnd(s, a) <= r.1 <= |s|
  {
    var b := OptionNameEnd(s, a);
    NameSliceValid(s, a, b);
    var v := OptionValue(s, SkipSpace(s, b));
    var e := if At(s, v.cursor) == ',' then v.cursor + 1 else v.cursor;
    (Node(s[a..b], v.value), e)
  }

  /**
   * The option loop of lines 105-203, entered at cursor `p`.  An empty
   * option name ends the loop there, keeping the nodes already built; a `}`
   * after an option (and its optional `,`) ends it just after the `}`.
   */
  function Group(s: string, p: nat): (g: GroupResult)
    requires p <= |s|
    ensures p <= g.cursor <= |s|
    ensures forall k :: 0 <= k < |g.nodes| ==> ValidNode(g.nodes[k])
    ensures LoopExit(s, g.cursor)
    decreases |s| - p
  {
    var a := SkipSpace(s, p);
    if OptionNameEnd(s, a) == a then
      assert At(s, a) in {'=', ',', '{', '}', '\0'};
      GroupResult([], a)
    else
      var (node, e) := OptionAt(s, a);
      if At(s, e) == '}' then GroupResult([node], e + 1)
      else
        var g := Group(s, e);
        GroupResult([node] + g.nodes, g.cursor)
  }

  /**
   * Line 125: the blanks between an option's name and its `=` or `{` are
   * skipped, so the value is read at the first non-blank after the name:
   * after `=` from the character past it, at `{` from the `{` itself with
   * its brackets kept, and with neither there the option has no value.
   */
  lemma {:induction false} OptionAtSkipsBlanks(s: string, a: nat)
    requires a < |s| && !IsOptionNameStop(s[a])
    ensures var b := OptionNameEnd(s, a); var c := SkipSpace(s, b);
      && (forall j :: b <= j < c ==> IsBlank(s[j]))
      && OptionAt(s, a).0.value == OptionValue(s, c).value
      && (At(s, c) == '=' ==> OptionAt(s, a).0.value == ShapeValue(s, c + 1, ChainEnd(s, c + 1), false))
      && (At(s, c) == '{' ==> OptionAt(s, a).0.value == ShapeValue(s, c, ChainEnd(s, c), true))
      && (At(s, c) != '=' && At(s, c) != '{' ==> OptionAt(s, a).0.value.None?)
  {
  }

  /**
   * One turn of the option loop (lines 196-201), once the option at the
   * first non-blank has been read and `v.cursor` is past its value: a `}`
   * closes the group just after it, and so does a `,` directly before a
   * `}`; a `,` before anything else moves on to the next option past it,
   * and with neither the next option is read where the value stopped.
   */
  lemma {:induction false} GroupStepCases(s: string, p: nat)
    requires p <= |s|
    ensures var a := SkipSpace(s, p);
      a < |s| && !IsOptionNameStop(s[a]) ==>
        var node := OptionAt(s, a).0;
        var v := OptionValue(s, SkipSpace(s, OptionNameEnd(s, a)));
        && (At(s, v.cursor) == '}' ==> Group(s, p) == GroupResult([node], v.cursor + 1))
        && (At(s, v.cursor) == ',' && At(s, v.cursor + 1) == '}' ==> Group(s, p) == GroupResult([node], v.cursor + 2))
        && (At(s, v.cursor) == ',' && At(s, v.cursor + 1) != '}' ==>
              Group(s, p) == GroupResult([node] + Group(s, v.cursor + 1).nodes, Group(s, v.cursor + 1).cursor))
        && (At(s, v.cursor) != ',' && At(s, v.cursor) != '}' ==>
              Group(s, p) == GroupResult([node] + Group(s, v.cursor).nodes, Group(s, v.cursor).cursor))
  {
    var a := SkipSpace(s, p);
    if a < |s| && !IsOptionNameStop(s[a]) {
      assert OptionNameEnd(s, a) != a;
    }
  }

  /**
   * The module name the parse returns for `s`: the prefix of `s` from
   * offset 0 (leading blanks included) through the run of characters
   * after those blanks that are not `{`, `:` or blank.
   */
  ghost predicate IsModuleToken(s: string, n: string) {
    var w := SkipSpace(s, 0);
    && 0 < |n| <= |s|
    && w <= |n|
    && n == s[..|n|]
    && (forall m :: w <= m < |n| ==> !IsModuleNameStop(s[m]))
    && (|n| == |s| || IsModuleNameStop(s[|n|]))
  }

  /** `r` is the whole text of `s` after some `:` of it. */
  ghost predicate IsTailAfterColon(s: string, r: string) {
    |r| < |s| && s[|s| - |r| - 1] == ':' && r == s[|s| - |r|..]
  }

  /** The cursor after the module name and its trailing blanks, where a `{` opens the group. */
  function AfterModuleName(s: string): nat {
    SkipSpace(s, ModuleNameEnd(s, SkipSpace(s, 0)))
  }

  /** The remainder once the option loop stops at `cursor`: the text after a `:` there, if there is one. */
  function RestAt(s: string, cursor: nat): (r: Option<string>)
    requires cursor <= |s|
    ensures r.Some? <==> At(s, cursor) == ':'
    ensures r.Some? ==> r.value == s[cursor + 1..] && IsTailAfterColon(s, r.value)
  {
    if At(s, cursor) == ':' then Some(s[cursor + 1..]) else None
  }

  /** `config_ChainCreate`, with NULL input as `None`. */
  function ChainCreate(input: Option<string>): (c: Chain)
    ensures input.None? ==> c == Chain(None, [], None)
    ensures c.name.None? ==> c.options == [] && c.rest.None?
    ensures forall k :: 0 <= k < |c.options| ==> ValidNode(c.options[k])
  {
    match input
    case None => Chain(None, [], None)
    case Some(s) =>
      var b := ModuleNameEnd(s, SkipSpace(s, 0));
      if b == 0 then Chain(None, [], None)
      else ChainAfterName(s, b, SkipSpace(s, b))
  }

  /**
   * Lines 99-208, once the module name `s[..b]` is read and `c` is past
   * the blanks after it: the option group when a `{` is there, then the
   * remainder after a `:` where the group (or the blanks) ended.
   */
  function ChainAfterName(s: string, b: nat, c: nat): (r: Chain)
    requires 0 < b <= c <= |s|
    ensures r.name == Some(s[..b])
    ensures forall k :: 0 <= k < |r.options| ==> ValidNode(r.options[k])
  {
    var g := if At(s, c) == '{' then Group(s, c + 1) else GroupResult([], c);
    Chain(Some(s[..b]), g.nodes, RestAt(s, g.cursor))
  }

  /** `ChainCreate` of a named input is `ChainAfterName` at the end of the name and after its blanks. */
  lemma {:induction false} ChainCreateNamed(s: string)
    requires ChainCreate(Some(s)).name.Some?
    ensures var b := ModuleNameEnd(s, SkipSpace(s, 0));
      0 < b <= AfterModuleName(s) <= |s| && ChainCreate(Some(s)) == ChainAfterName(s, b, AfterModuleName(s))
  {
  }

  /**
   * Lines 97-99: the blanks between the module name and its `{` are
   * skipped, so the options are those of the group opened there, and the
   * remainder is looked for where that group stops.
   */
  lemma {:induction false} ChainCreateGroupAfterBlanks(s: string)
    requires ChainCreate(Some(s)).name.Some? && At(s, AfterModuleName(s)) == '{'
    ensures var b := ModuleNameEnd(s, SkipSpace(s, 0)); var c := AfterModuleName(s);
      && (forall j :: b <= j < c ==> IsBlank(s[j]))
      && ChainCreate(Some(s)).options == Group(s, c + 1).nodes
      && ChainCreate(Some(s)).rest == RestAt(s, Group(s, c + 1).cursor)
  {
    ChainCreateNamed(s);
  }

  /** There is no module name exactly when the input is empty or starts with `{` or `:`. */
  lemma ChainCreateNoName(s: string)
    ensures ChainCreate(Some(s)).name.None? <==> |s| == 0 || s[0] == '{' || s[0] == ':'
  {
  }

  /** A module name is the prefix through the first name token. */
  lemma ChainCreateModuleToken(s: string)
    requires ChainCreate(Some(s)).name.Some?
    ensures IsModuleToken(s, ChainCreate(Some(s)).name.value)
  {
  }

  /** A remainder is the text after a `:` of the input. */
  lemma ChainCreateRest(s: string)
    requires ChainCreate(Some(s)).rest.Some?
    ensures IsTailAfterColon(s, ChainCreate(Some(s)).rest.value)
  {
  }


  /**
   * Without a group, the remainder is taken at the first character after
   * the module name and its blanks (lines 97 and 206): `a :b` keeps `b`.
   */
  lemma {:induction false} ChainCreateRestPlain(s: string)
    requires ChainCreate(Some(s)).name.Some? && At(s, AfterModuleName(s)) != '{'
    ensures var c := AfterModuleName(s); var r := ChainCreate(Some(s));
      && r.options == []
      && r.rest == (if At(s, c) == ':' then Some(s[c + 1..]) else None)
  {
    ChainCreateNamed(s);
  }

  /**
   * With a group, a remainder's `:` comes straight after the group's
   * closing `}` (lines 198-206): no blanks are skipped there.
   */
  lemma {:induction false} ChainCreateRestGroup(s: string)
    requires ChainCreate(Some(s)).name.Some? && At(s, AfterModuleName(s)) == '{'
    ensures ChainCreate(Some(s)).rest.Some? ==>
      var k := |s| - |ChainCreate(Some(s)).rest.value| - 1;
      0 < k < |s| && s[k] == ':' && s[k - 1] == '}'
  {
    ChainCreateNamed(s);
    AfterNameRestGroup(s, ModuleNameEnd(s, SkipSpace(s, 0)), AfterModuleName(s));
  }

  /** `ChainCreateRestGroup` for the parse after the module name. */
  lemma {:induction false} AfterNameRestGroup(s: string, b: nat, c: nat)
    requires 0 < b <= c <= |s| && At(s, c) == '{'
    ensures ChainAfterName(s, b, c).rest.Some? ==>
      var k := |s| - |ChainAfterName(s, b, c).rest.value| - 1;
      0 < k < |s| && s[k] == ':' && s[k - 1] == '}'
  {
    var g := Group(s, c + 1);
    assert ChainAfterName(s, b, c).rest == RestAt(s, g.cursor);
    if RestAt(s, g.cursor).Some? {
      RestAfterBrace(s, g.cursor);
    }
  }

  /** A remainder taken where the option loop stopped follows a `}`. */
  lemma RestAfterBrace(s: string, cursor: nat)
    requires cursor <= |s| && LoopExit(s, cursor) && RestAt(s, cursor).Some?
    ensures var k := |s| - |RestAt(s, cursor).value| - 1;
      k == cursor && 0 < k < |s| && s[k] == ':' && s[k - 1] == '}'
  {
  }

  /** A group that yields no option stopped at a character that cannot be `:`. */
  lemma GroupEmptyStop(s: string, p: nat)
    requires p <= |s| && Group(s, p).nodes == []
    ensures Group(s, p).cursor == SkipSpace(s, p)
    ensures At(s, Group(s, p).cursor) in {'=', ',', '{', '}', '\0'}
  {
  }

  /**
   * Lines 109-123 and 196-206: when the option loop stops at an empty
   * name before building any option, nothing after the group is kept.
   */
  lemma {:induction false} EmptyGroupNoRest(s: string)
    requires ChainCreate(Some(s)).name.Some? && At(s, AfterModuleName(s)) == '{'
    requires ChainCreate(Some(s)).options == []
    ensures ChainCreate(Some(s)).rest.None?
  {
    ChainCreateNamed(s);
    var c := AfterModuleName(s);
    var g := Group(s, c + 1);
    assert ChainCreate(Some(s)).options == g.nodes;
    assert ChainCreate(Some(s)).rest == RestAt(s, g.cursor);
    GroupEmptyStop(s, c + 1);
  }
}

=== FILE: chain_render.dfy ===
/**
 * A canonical text form for a parsed chain, and the round trip
 * `ChainCreate(Render(c)) == c`: every chain whose names and values can be
 * written down is recovered exactly by the parser, remainder included.
 */
module ChainRender {
  import opened Wrappers
  import opened ChainScan
  import opened ChainParse

  /** A value the scanner reads back as it is without quotes: no special character, no blank at either end. */
  predicate IsBare(v: string) {
    && 0 < |v|
    && (forall k :: 0 <= k < |v| ==> !IsSpecial(v[k]))
    && !IsBlank(v[0])
    && !IsBlank(v[|v| - 1])
  }

  /** The quote used to wrap a value that is not bare: `"` unless the value contains one. */
  function QuoteFor(v: string): char {
    if '"' in v then '\'' else '"'
  }

  /** A value that can be written: non-empty, and bare or free of at least one quote character. */
  predicate RenderableValue(v: string) {
    0 < |v| && (IsBare(v) || !('"' in v && '\'' in v))
  }

  predicate RenderableNode(n: Node) {
    ValidName(n.name) && (n.value.Some? ==> RenderableValue(n.value.value))
  }

  /** A module name the parser reads back as it is: non-empty, no `{`, `:` or blank. */
  predicate ValidModuleName(n: string) {
    0 < |n| && forall k :: 0 <= k < |n| ==> !IsModuleNameStop(n[k])
  }

  function EncodeValue(v: string): string {
    if IsBare(v) then v else [QuoteFor(v)] + v + [QuoteFor(v)]
  }

  /** What follows an option's name: `=` and its encoded value, or nothing when it has none. */
  function EncodeAssignment(n: Node): string {
    if n.value.Some? then "=" + EncodeValue(n.value.value) else ""
  }

  function EncodeNode(n: Node): string {
    n.name + EncodeAssignment(n)
  }

  /** The options of a group, `,`-separated, with the closing `}`. */
  function EncodeOptions(nodes: seq<Node>): string
    requires 0 < |nodes|
  {
    EncodeNode(nodes[0]) + (if |nodes| == 1 then "}" else "," + EncodeOptions(nodes[1..]))
  }

  /** `name{options}:rest`, leaving out the braces when there are no options and the `:` when there is no rest. */
  function Render(name: string, nodes: seq<Node>, rest: Option<string>): string {
    name + GroupText(nodes) + RestText(rest)
  }

  /** The option group: nothing when there are no options. */
  function GroupText(nodes: seq<Node>): string {
    if |nodes| == 0 then "" else "{" + EncodeOptions(nodes)
  }

  function RestText(rest: Option<string>): string {
    if rest.Some? then ":" + rest.value else ""
  }

  // ---------------------------------------------------------------------
  // Proof.

  /** Reading `s` from `c` when `s[c..]` is known to be `x + y`. */
  lemma Split(s: string, c: nat, x: string, y: string)
    requires c <= |s|
    requires s[c..] == x + y
    ensures c + |x| <= |s|
    ensures s[c..c + |x|] == x
    ensures s[c + |x|..] == y
    ensures 0 < |x| ==> s[c] == x[0]
    ensures 0 < |y| ==> s[c + |x|] == y[0]
  {
    assert s[c + |x|..] == s[c..][|x|..];
    assert s[c..c + |x|] == s[c..][..|x|];
    if 0 < |x| {
      assert s[c] == s[c..][0];
    }
    if 0 < |y| {
      assert s[c + |x|] == s[c + |x|..][0];
    }
  }

  lemma OptionNameEndAt(s: string, a: nat, x: string, y: string)
    requires a <= |s|
    requires s[a..] == x + y
    requires ValidName(x)
    requires 0 < |y| && IsOptionNameStop(y[0])
    ensures OptionNameEnd(s, a) == a + |x|
  {
    Split(s, a, x, y);
    forall m | a <= m < a + |x|
      ensures !IsOptionNameStop(s[m])
    {
      assert s[m] == s[a..a + |x|][m - a];
    }
  }

  /** `OptionValue` at a `=`: the value is shaped from the span after it. */
  lemma OptionValueAtEquals(s: string, c: nat)
    requires c < |s| && s[c] == '='
    ensures OptionValue(s, c) ==
      ValueResult(ShapeValue(s, c + 1, ChainEnd(s, c + 1), false), SkipSpace(s, ChainEnd(s, c + 1)))
  {
  }

  /** The option loop's first pass once the option at `p` is known. */
  lemma GroupStep(s: string, p: nat, node: Node, e: nat)
    requires p < |s| && !IsOptionNameStop(s[p])
    requires SkipSpace(s, p) == p
    requires OptionAt(s, p).0 == node && OptionAt(s, p).1 == e
    ensures At(s, e) == '}' ==> Group(s, p) == GroupResult([node], e + 1)
    ensures At(s, e) != '}' ==> Group(s, p) == GroupResult([node] + Group(s, e).nodes, Group(s, e).cursor)
  {
  }

  lemma SkipSpaceAtNonBlank(s: string, i: nat)
    requires i <= |s|
    requires i == |s| || !IsBlank(s[i])
    ensures SkipSpace(s, i) == i
  {
  }

  /** The scan of a bare value stops at the `,` or `}` right after it. */
  lemma BareSpan(s: string, c: nat, v: string)
    requires IsBare(v) && c + |v| < |s|
    requires s[c..c + |v|] == v
    requires s[c + |v|] == ',' || s[c + |v|] == '}'
    ensures ChainEnd(s, c) == c + |v|
  {
    forall m | c <= m < c + |v|
      ensures !IsSpecial(s[m])
    {
      assert s[m] == s[c..c + |v|][m - c];
    }
    assert s[c] == v[0];
    SkipSpaceAtNonBlank(s, c);
    ChainEndTopLevel(s, c, c + |v|);
  }

  /** A bare span is kept whole: it has no blank to trim at either end. */
  lemma BareShape(s: string, c: nat, v: string)
    requires IsBare(v) && c + |v| <= |s|
    requires s[c..c + |v|] == v
    ensures ShapeValue(s, c, c + |v|, false) == Some(v)
  {
    var k := c + |v|;
    assert s[c] == v[0] && s[k - 1] == v[|v| - 1];
    SkipSpaceAtNonBlank(s, c);
    ShapeValueCases(s, c, k, false);
    assert !Delimited(s[c], false);
  }

  /** The quote scan from `i` stops just after the first `q`, found at `i + |v|`. */
  lemma QuotedStopsAfter(s: string, i: nat, v: string, q: char)
    requires i + |v| < |s|
    requires q !in v && s[i..i + |v|] == v && s[i + |v|] == q
    ensures Quoted(s, i, q) == i + |v| + 1
  {
    assert s[i..][|v|] == q;
  }

  /** The scan of a value wrapped in a quote it does not contain stops after the closing quote. */
  lemma QuotedSpan(s: string, c: nat, v: string, q: char)
    requires 0 < |v| && IsQuote(q) && q !in v && c + |v| + 2 <= |s|
    requires s[c] == q && s[c + 1..c + 1 + |v|] == v && s[c + 1 + |v|] == q
    ensures ChainEnd(s, c) == c + |v| + 2
  {
    QuotedStopsAfter(s, c + 1, v, q);
    SkipSpaceAtNonBlank(s, c);
    ChainEndTopLevel(s, c, c);
  }

  /** A quoted span loses exactly its two quotes. */
  lemma QuotedShape(s: string, c: nat, v: string, q: char)
    requires 0 < |v| && IsQuote(q) && c + |v| + 2 <= |s|
    requires s[c] == q && s[c + 1..c + 1 + |v|] == v
    ensures ShapeValue(s, c, c + |v| + 2, false) == Some(v)
  {
    SkipSpaceAtNonBlank(s, c);
    ShapeValueCases(s, c, c + |v| + 2, false);
  }

  /** A bare value followed by `,` or `}` spans exactly itself and shapes back to itself. */
  lemma BareValueParses(s: string, c: nat, v: string, u: string, k: nat)
    requires c <= |s| && IsBare(v) && k == c + |v|
    requires s[c..] == v + u
    requires 0 < |u| && (u[0] == ',' || u[0] == '}')
    ensures ChainEnd(s, c) == k
    ensures ShapeValue(s, c, k, false) == Some(v)
  {
    Split(s, c, v, u);
    BareSpan(s, c, v);
    BareShape(s, c, v);
  }

  /** A value wrapped in a quote it does not contain spans the quotes and loses them. */
  lemma QuotedValueParses(s: string, c: nat, v: string, q: char, u: string, k: nat)
    requires c <= |s| && 0 < |v| && IsQuote(q) && q !in v && k == c + |v| + 2
    requires s[c..] == [q] + v + [q] + u
    ensures ChainEnd(s, c) == k
    ensures ShapeValue(s, c, k, false) == Some(v)
  {
    var x := [q] + v + [q];
    assert k <= |s| && s[c..k] == x by {
      Split(s, c, x, u);
    }
    assert s[c] == q && s[c + 1..c + 1 + |v|] == v && s[c + 1 + |v|] == q by {
      assert s[c] == s[c..k][0];
      assert s[c + 1 + |v|] == s[c..k][1 + |v|];
      assert s[c + 1..c + 1 + |v|] == s[c..k][1..1 + |v|];
    }
    QuotedSpan(s, c, v, q);
    QuotedShape(s, c, v, q);
  }

  /** An encoded value followed by `,` or `}` spans exactly its encoding and shapes back to the value. */
  lemma EncodedValueParses(s: string, c: nat, v: string, u: string)
    requires c <= |s|
    requires RenderableValue(v)
    requires s[c..] == EncodeValue(v) + u
    requires 0 < |u| && (u[0] == ',' || u[0] == '}')
    ensures ChainEnd(s, c) == c + |EncodeValue(v)|
    ensures ShapeValue(s, c, c + |EncodeValue(v)|, false) == Some(v)
  {
    var k := c + |EncodeValue(v)|;
    if IsBare(v) {
      assert EncodeValue(v) == v;
      BareValueParses(s, c, v, u, k);
    } else {
      var q := QuoteFor(v);
      assert EncodeValue(v) == [q] + v + [q];
      assert 0 < |v| && IsQuote(q) && q !in v;
      QuotedValueParses(s, c, v, q, u, k);
    }
  }

  lemma ValueParses(s: string, c: nat, v: string, u: string)
    requires c <= |s|
    requires RenderableValue(v)
    requires s[c..] == "=" + EncodeValue(v) + u
    requires 0 < |u| && (u[0] == ',' || u[0] == '}')
    ensures OptionValue(s, c) == ValueResult(Some(v), c + 1 + |EncodeValue(v)|)
  {
    var k := c + 1 + |EncodeValue(v)|;
    ValueLayout(s, c, EncodeValue(v), u);
    EncodedValueParses(s, c + 1, v, u);
    OptionValueFrom(s, c, k, v);
  }

  /** Where the pieces of `=`, an encoded value `x` and what follows it sit in `s`. */
  lemma ValueLayout(s: string, c: nat, x: string, u: string)
    requires c <= |s|
    requires s[c..] == "=" + x + u
    requires 0 < |u| && (u[0] == ',' || u[0] == '}')
    ensures c + 1 + |x| < |s| && s[c] == '=' && s[c + 1..] == x + u
    ensures s[c + 1 + |x|] == u[0] && !IsBlank(s[c + 1 + |x|])
  {
    assert s[c..] == "=" + (x + u);
    Split(s, c, "=", x + u);
    Split(s, c + 1, x, u);
  }

  /** `OptionValue` at a `=` whose span ends at `k`, before a character that is not blank. */
  lemma OptionValueFrom(s: string, c: nat, k: nat, v: string)
    requires c < k < |s| && s[c] == '=' && !IsBlank(s[k])
    requires ChainEnd(s, c + 1) == k
    requires ShapeValue(s, c + 1, k, false) == Some(v)
    ensures OptionValue(s, c) == ValueResult(Some(v), k)
  {
    SkipSpaceAtNonBlank(s, k);
    OptionValueAtEquals(s, c);
  }

  /** `OptionAt` once the value parsed after the name is known. */
  lemma OptionAtFrom(s: string, a: nat, b: nat, r: ValueResult, next: nat)
    requires a < |s| && !IsOptionNameStop(s[a])
    requires OptionNameEnd(s, a) == b
    requires OptionValue(s, SkipSpace(s, b)) == r
    requires next == if At(s, r.cursor) == ',' then r.cursor + 1 else r.cursor
    ensures OptionAt(s, a) == (Node(s[a..b], r.value), next)
  {
    var (node, e) := OptionAt(s, a);
    assert node == Node(s[a..b], r.value);
    assert e == next;
  }

  /** Where the parts of a rendered option sit in `s`, and how the name scan treats them. */
  lemma NodeLayout(s: string, a: nat, n: Node, u: string)
    requires a <= |s|
    requires ValidName(n.name)
    requires s[a..] == EncodeNode(n) + u
    requires 0 < |u| && (u[0] == ',' || u[0] == '}')
    ensures a + |EncodeNode(n)| < |s| && s[a + |EncodeNode(n)|] == u[0]
    ensures s[a..a + |n.name|] == n.name
    ensures s[a + |n.name|..] == EncodeAssignment(n) + u
    ensures SkipSpace(s, a) == a
    ensures OptionNameEnd(s, a) == a + |n.name|
    ensures SkipSpace(s, a + |n.name|) == a + |n.name|
  {
    var b := a + |n.name|;
    var tail := EncodeAssignment(n) + u;
    assert s[a..] == n.name + tail;
    Split(s, a, n.name, tail);
    Split(s, b, EncodeAssignment(n), u);
    SkipSpaceAtNonBlank(s, a);
    OptionNameEndAt(s, a, n.name, tail);
    SkipSpaceAtNonBlank(s, b);
  }

  /** The value part of a rendered option parses back to the option's value. */
  lemma AssignmentParses(s: string, b: nat, n: Node, u: string)
    requires b <= |s|
    requires n.value.Some? ==> RenderableValue(n.value.value)
    requires s[b..] == EncodeAssignment(n) + u
    requires 0 < |u| && (u[0] == ',' || u[0] == '}')
    ensures OptionValue(s, b) == ValueResult(n.value, b + |EncodeAssignment(n)|)
  {
    if n.value.Some? {
      ValueParses(s, b, n.value.value, u);
    } else {
      Split(s, b, "", u);
      SkipSpaceAtNonBlank(s, b);
    }
  }

  /** One rendered option followed by `,` or `}`: its node, and the cursor after the `,` if there is one. */
  lemma NodeParses(s: string, a: nat, n: Node, u: string)
    requires a <= |s|
    requires RenderableNode(n)
    requires s[a..] == EncodeNode(n) + u
    requires 0 < |u| && (u[0] == ',' || u[0] == '}')
    ensures a < |s| && !IsOptionNameStop(s[a])
    ensures SkipSpace(s, a) == a
    ensures OptionAt(s, a).0 == n
    ensures OptionAt(s, a).1 == a + |EncodeNode(n)| + (if u[0] == ',' then 1 else 0)
    ensures a + |EncodeNode(n)| < |s| && s[a + |EncodeNode(n)|] == u[0]
  {
    var b := a + |n.name|;
    var e := a + |EncodeNode(n)|;
    NodeLayout(s, a, n, u);
    AssignmentParses(s, b, n, u);
    assert At(s, e) == u[0];
    assert s[a] == n.name[0] && !IsOptionNameStop(s[a]);
    var next := e + (if u[0] == ',' then 1 else 0);
    OptionAtFrom(s, a, b, ValueResult(n.value, e), next);
    assert Node(s[a..b], n.value) == n;
  }

  /** `s` holds `x` from offset `p` on, character by character. */
  predicate ReadsAt(s: string, p: nat, x: string)
    decreases |x|
  {
    if |x| == 0 then p <= |s| else p < |s| && s[p] == x[0] && ReadsAt(s, p + 1, x[1..])
  }

  lemma {:induction false} ReadsAtSlice(s: string, p: nat, x: string)
    ensures ReadsAt(s, p, x) <==> p + |x| <= |s| && s[p..p + |x|] == x
    decreases |x|
  {
    if 0 < |x| {
      ReadsAtSlice(s, p + 1, x[1..]);
      if p + |x| <= |s| {
        assert s[p..p + |x|] == [s[p]] + s[p + 1..p + |x|];
        assert x == [x[0]] + x[1..];
      }
    }
  }

  lemma ReadsAtAppend(s: string, p: nat, x: string, y: string)
    ensures ReadsAt(s, p, x + y) <==> ReadsAt(s, p, x) && ReadsAt(s, p + |x|, y)
  {
    ReadsAtSlice(s, p, x + y);
    ReadsAtSlice(s, p, x);
    ReadsAtSlice(s, p + |x|, y);
    if p + |x| + |y| <= |s| {
      var w := s[p..p + |x| + |y|];
      assert w[..|x|] == s[p..p + |x|];
      assert w[|x|..] == s[p + |x|..p + |x| + |y|];
      assert w == w[..|x|] + w[|x|..];
      if w == x + y {
        assert w[..|x|] == x && w[|x|..] == y;
      }
    }
  }

  /** The whole rest of `s` from `p` is `x`. */
  lemma ReadsAtRest(s: string, p: nat, x: string)
    requires p <= |s|
    ensures s[p..] == x <==> ReadsAt(s, p, x) && p + |x| == |s|
  {
    ReadsAtSlice(s, p, x);
  }

  /** One rendered option, followed by `sep`, read from `a`: what the option loop makes of it. */
  lemma NodeParsesAt(s: string, a: nat, n: Node, sep: char)
    requires RenderableNode(n)
    requires sep == ',' || sep == '}'
    requires ReadsAt(s, a, EncodeNode(n))
    requires a + |EncodeNode(n)| < |s| && s[a + |EncodeNode(n)|] == sep
    ensures a < |s| && !IsOptionNameStop(s[a]) && SkipSpace(s, a) == a
    ensures OptionAt(s, a).0 == n
    ensures OptionAt(s, a).1 == a + |EncodeNode(n)| + (if sep == ',' then 1 else 0)
  {
    var e := a + |EncodeNode(n)|;
    assert s[a..] == EncodeNode(n) + s[e..] by {
      ReadsAtSlice(s, a, EncodeNode(n));
      assert s[a..] == s[a..e] + s[e..];
    }
    NodeParses(s, a, n, s[e..]);
  }

  /**
   * The characters of a rendered group read from `p`, option by option:
   * each option's text followed by `,`, or by `}` for the last one, after
   * which the group ends at `c`.
   */
  ghost predicate Laid(s: string, p: nat, nodes: seq<Node>, c: nat)
    decreases |nodes|
  {
    && 0 < |nodes|
    && RenderableNode(nodes[0])
    && ReadsAt(s, p, EncodeNode(nodes[0]))
    && p + |EncodeNode(nodes[0])| < |s|
    && if |nodes| == 1 then s[p + |EncodeNode(nodes[0])|] == '}' && c == p + |EncodeNode(nodes[0])| + 1
       else s[p + |EncodeNode(nodes[0])|] == ',' && Laid(s, p + |EncodeNode(nodes[0])| + 1, nodes[1..], c)
  }

  /** A rendered group is laid out option by option. */
  lemma {:induction false} EncodedLaid(s: string, p: nat, nodes: seq<Node>)
    requires 0 < |nodes|
    requires forall k :: 0 <= k < |nodes| ==> RenderableNode(nodes[k])
    requires ReadsAt(s, p, EncodeOptions(nodes))
    ensures Laid(s, p, nodes, p + |EncodeOptions(nodes)|)
    decreases |nodes|
  {
    var x := EncodeNode(nodes[0]);
    var e := p + |x|;
    if |nodes| == 1 {
      ReadsAtAppend(s, p, x, "}");
    } else {
      var more := EncodeOptions(nodes[1..]);
      assert EncodeOptions(nodes) == x + ("," + more);
      ReadsAtAppend(s, p, x, "," + more);
      ReadsAtAppend(s, e, ",", more);
      EncodedLaid(s, e + 1, nodes[1..]);
    }
  }

  /**
   * The option loop's view of a group laid out in `s` from `p`: each option
   * starts at a name character with no blanks before it, parses to the
   * expected node, and is followed by `}` for the last option (the loop
   * then stops at `c`) or by the next option.
   */
  ghost predicate Chained(s: string, p: nat, nodes: seq<Node>, c: nat)
    decreases |nodes|
  {
    && 0 < |nodes|
    && p < |s| && !IsOptionNameStop(s[p]) && SkipSpace(s, p) == p
    && OptionAt(s, p).0 == nodes[0]
    && if |nodes| == 1 then At(s, OptionAt(s, p).1) == '}' && c == OptionAt(s, p).1 + 1
       else At(s, OptionAt(s, p).1) != '}' && Chained(s, OptionAt(s, p).1, nodes[1..], c)
  }

  /** A chained group is what the option loop returns. */
  lemma {:induction false} ChainedGroup(s: string, p: nat, nodes: seq<Node>, c: nat)
    requires Chained(s, p, nodes, c)
    ensures p <= |s| && Group(s, p) == GroupResult(nodes, c)
    decreases |nodes|
  {
    var e := OptionAt(s, p).1;
    GroupStep(s, p, nodes[0], e);
    if 1 < |nodes| {
      ChainedGroup(s, e, nodes[1..], c);
      assert [nodes[0]] + nodes[1..] == nodes;
    } else {
      assert nodes == [nodes[0]];
    }
  }

  /** The last option of a group: the loop stops just after the `}`. */
  lemma ChainedLast(s: string, p: nat, n: Node, e: nat)
    requires p < |s| && !IsOptionNameStop(s[p]) && SkipSpace(s, p) == p
    requires OptionAt(s, p).0 == n && OptionAt(s, p).1 == e
    requires At(s, e) == '}'
    ensures Chained(s, p, [n], e + 1)
  {
  }

  /** A laid-out group is chained: the option loop parses each option in turn. */
  lemma {:induction false} LaidChained(s: string, p: nat, nodes: seq<Node>, c: nat)
    requires Laid(s, p, nodes, c)
    ensures Chained(s, p, nodes, c)
    decreases |nodes|
  {
    var n := nodes[0];
    var e := p + |EncodeNode(n)|;
    if |nodes| == 1 {
      NodeParsesAt(s, p, n, '}');
      ChainedLast(s, p, n, e);
      assert nodes == [n];
    } else {
      NodeParsesAt(s, p, n, ',');
      LaidChained(s, e + 1, nodes[1..], c);
      assert p < |s| && !IsOptionNameStop(s[p]) && SkipSpace(s, p) == p;
      assert OptionAt(s, p).0 == n;
      assert OptionAt(s, p).1 == e + 1;
      assert At(s, e + 1) != '}';
      assert Chained(s, e + 1, nodes[1..], c);
      assert Chained(s, p, nodes, c);
    }
  }

  /**
   * `ChainCreate` on a text whose module name ends at `b`, just before the
   * `{` of a group that the option loop reads as `g`.
   */
  lemma ChainCreateGroup(s: string, b: nat, g: GroupResult)
    requires 0 < b < |s| && s[b] == '{'
    requires SkipSpace(s, 0) == 0 && ModuleNameEnd(s, 0) == b && SkipSpace(s, b) == b
    requires Group(s, b + 1) == g
    ensures ChainCreate(Some(s)) == Chain(Some(s[..b]), g.nodes, RestAt(s, g.cursor))
  {
  }

  lemma RestAtIs(s: string, cursor: nat, rest: Option<string>)
    requires cursor <= |s| && (At(s, cursor) == ':' <==> rest.Some?)
    requires rest.Some? ==> s[cursor + 1..] == rest.value
    ensures RestAt(s, cursor) == rest
  {
  }

  /** `ChainCreate` on a text whose module name ends at `b`, with no group after it. */
  lemma ChainCreatePlain(s: string, b: nat)
    requires 0 < b <= |s| && At(s, b) != '{'
    requires SkipSpace(s, 0) == 0 && ModuleNameEnd(s, 0) == b && SkipSpace(s, b) == b
    ensures ChainCreate(Some(s)) == Chain(Some(s[..b]), [], RestAt(s, b))
  {
  }

  /** A text made of three parts reads each of them in turn. */
  lemma ReadsParts(s: string, x: string, y: string, z: string)
    requires s == x + y + z
    ensures ReadsAt(s, 0, x) && ReadsAt(s, |x|, y) && ReadsAt(s, |x| + |y|, z)
  {
    assert s[0..|s|] == s;
    ReadsAtSlice(s, 0, s);
    ReadsAtAppend(s, 0, x + y, z);
    ReadsAtAppend(s, 0, x, y);
  }

  /** The three parts of a rendered chain, read in turn. */
  lemma RenderReads(name: string, nodes: seq<Node>, rest: Option<string>)
    ensures var s := Render(name, nodes, rest);
      && ReadsAt(s, 0, name)
      && ReadsAt(s, |name|, GroupText(nodes))
      && ReadsAt(s, |name| + |GroupText(nodes)|, RestText(rest))
      && |s| == |name| + |GroupText(nodes)| + |RestText(rest)|
  {
    ReadsParts(Render(name, nodes, rest), name, GroupText(nodes), RestText(rest));
  }

  /** The module name of a rendered chain is read back whole, with no blank around it. */
  lemma NameLayout(name: string, nodes: seq<Node>, rest: Option<string>)
    requires ValidModuleName(name)
    ensures var s := Render(name, nodes, rest);
      && s[..|name|] == name
      && SkipSpace(s, 0) == 0 && ModuleNameEnd(s, 0) == |name| && SkipSpace(s, |name|) == |name|
  {
    var t := GroupText(nodes) + RestText(rest);
    assert Render(name, nodes, rest) == name + t;
    if 0 < |nodes| {
      assert t[0] == GroupText(nodes)[0] == '{';
    } else if rest.Some? {
      assert t[0] == ':';
    }
    NameLayoutAt(name + t, name, t);
  }

  /** A module name followed by nothing, or by text that starts with `{` or `:`, is read as that name. */
  lemma NameLayoutAt(s: string, name: string, t: string)
    requires ValidModuleName(name) && s == name + t
    requires 0 < |t| ==> t[0] == '{' || t[0] == ':'
    ensures s[..|name|] == name
    ensures SkipSpace(s, 0) == 0 && ModuleNameEnd(s, 0) == |name| && SkipSpace(s, |name|) == |name|
  {
    var b := |name|;
    assert s[..b] == name;
    forall m | 0 <= m < b
      ensures !IsModuleNameStop(s[m])
    {
      assert s[m] == name[m];
    }
    assert s[0] == name[0];
    if b < |s| {
      assert s[b] == t[0];
    }
    SkipSpaceAtNonBlank(s, 0);
    SkipSpaceAtNonBlank(s, b);
  }

  /** After the module name: a `{` and the rendered options, or no `{` at all. */
  lemma GroupLayout(name: string, nodes: seq<Node>, rest: Option<string>)
    ensures var s := Render(name, nodes, rest);
      && (|nodes| == 0 ==> At(s, |name|) != '{')
      && (0 < |nodes| ==> |name| < |s| && s[|name|] == '{' && ReadsAt(s, |name| + 1, EncodeOptions(nodes)))
  {
    var s := Render(name, nodes, rest);
    var b := |name|;
    RenderReads(name, nodes, rest);
    if 0 < |nodes| {
      ReadsAtAppend(s, b, "{", EncodeOptions(nodes));
    } else if rest.Some? {
      ReadsAtAppend(s, b, ":", rest.value);
    }
  }

  /** Where the rendered remainder sits: after the group, introduced by `:` when there is one. */
  lemma RestLayout(name: string, nodes: seq<Node>, rest: Option<string>)
    ensures var s := Render(name, nodes, rest);
      var cur := |name| + |GroupText(nodes)|;
      && cur <= |s|
      && (At(s, cur) == ':' <==> rest.Some?)
      && (rest.Some? ==> s[cur + 1..] == rest.value)
  {
    var s := Render(name, nodes, rest);
    var cur := |name| + |GroupText(nodes)|;
    RenderReads(name, nodes, rest);
    if rest.Some? {
      ReadsAtAppend(s, cur, ":", rest.value);
      ReadsAtRest(s, cur + 1, rest.value);
    }
  }

  /** The option loop reads a rendered group back whole and stops after its `}`. */
  lemma OptionsGroup(s: string, p: nat, nodes: seq<Node>)
    requires 0 < |nodes|
    requires forall k :: 0 <= k < |nodes| ==> RenderableNode(nodes[k])
    requires ReadsAt(s, p, EncodeOptions(nodes))
    ensures p <= |s| && Group(s, p) == GroupResult(nodes, p + |EncodeOptions(nodes)|)
  {
    var c := p + |EncodeOptions(nodes)|;
    EncodedLaid(s, p, nodes);
    LaidChained(s, p, nodes, c);
    assert Chained(s, p, nodes, c);
    ChainedGroup(s, p, nodes, c);
  }

  /**
   * The round trip: a chain whose module name and options can be written
   * down is parsed back exactly from its rendering, remainder included.
   */
  lemma ParseRender(name: string, nodes: seq<Node>, rest: Option<string>)
    requires ValidModuleName(name)
    requires forall k :: 0 <= k < |nodes| ==> RenderableNode(nodes[k])
    ensures ChainCreate(Some(Render(name, nodes, rest))) == Chain(Some(name), nodes, rest)
  {
    if 0 < |nodes| {
      ParseRenderGroup(name, nodes, rest);
    } else {
      ParseRenderPlain(name, nodes, rest);
    }
  }

  /** `ParseRender` without options: the module name is followed by the remainder, if any. */
  lemma ParseRenderPlain(name: string, nodes: seq<Node>, rest: Option<string>)
    requires ValidModuleName(name) && |nodes| == 0
    ensures ChainCreate(Some(Render(name, nodes, rest))) == Chain(Some(name), nodes, rest)
  {
    var s := Render(name, nodes, rest);
    var b := |name|;
    NameLayout(name, nodes, rest);
    GroupLayout(name, nodes, rest);
    RestLayout(name, nodes, rest);
    assert |GroupText(nodes)| == 0 && nodes == [];
    ChainCreatePlain(s, b);
    RestAtIs(s, b, rest);
  }

  /** `ParseRender` with options: the group is read in full, then the remainder. */
  lemma ParseRenderGroup(name: string, nodes: seq<Node>, rest: Option<string>)
    requires ValidModuleName(name) && 0 < |nodes|
    requires forall k :: 0 <= k < |nodes| ==> RenderableNode(nodes[k])
    ensures ChainCreate(Some(Render(name, nodes, rest))) == Chain(Some(name), nodes, rest)
  {
    var s := Render(name, nodes, rest);
    NameLayout(name, nodes, rest);
    GroupLayout(name, nodes, rest);
    RestLayout(name, nodes, rest);
    assert |GroupText(nodes)| == 1 + |EncodeOptions(nodes)|;
    ParseLaidOut(s, name, nodes, rest, |name| + |GroupText(nodes)|);
  }

  /** Any text laid out as a module name, a `{` and rendered options, and a remainder parses to them. */
  lemma ParseLaidOut(s: string, name: string, nodes: seq<Node>, rest: Option<string>, cur: nat)
    requires 0 < |name| && 0 < |nodes|
    requires forall k :: 0 <= k < |nodes| ==> RenderableNode(nodes[k])
    requires |name| < |s| && s[..|name|] == name
    requires SkipSpace(s, 0) == 0 && ModuleNameEnd(s, 0) == |name| && SkipSpace(s, |name|) == |name|
    requires s[|name|] == '{' && ReadsAt(s, |name| + 1, EncodeOptions(nodes))
    requires cur == |name| + 1 + |EncodeOptions(nodes)|
    requires cur <= |s| && (At(s, cur) == ':' <==> rest.Some?) && (rest.Some? ==> s[cur + 1..] == rest.value)
    ensures ChainCreate(Some(s)) == Chain(Some(name), nodes, rest)
  {
    var b := |name|;
    OptionsGroup(s, b + 1, nodes);
    ChainCreateGroup(s, b, GroupResult(nodes, cur));
    RestAtIs(s, cur, rest);
  }
}

=== FILE: chain_scan.dfy ===
/**
 * The value-end scanner of the module-chain syntax (`_get_chain_end`).
 *
 * A C string is modelled as the `string` of its characters before the
 * terminating NUL; a cursor is an index into it and the index `|s|` plays
 * the part of the NUL itself.
 */
module ChainScan {

  /** The two characters SKIPSPACE and SKIPTRAILINGSPACE step over. */
  predicate IsBlank(c: char) {
    c == ' ' || c == '\t'
  }

  /** The two quote characters the scanner treats as opaque-span openers. */
  predicate IsQuote(c: char) {
    c == '\'' || c == '"'
  }

  /** The cursor after SKIPSPACE: the first non-blank index at or after `i`. */
  function SkipSpace(s: string, i: nat): (j: nat)
    requires i <= |s|
    ensures i <= j <= |s|
    ensures forall m :: i <= m < j ==> IsBlank(s[m])
    ensures j == |s| || !IsBlank(s[j])
    decreases |s| - i
  {
    if i < |s| && IsBlank(s[i]) then SkipSpace(s, i + 1) else i
  }

  /** The end after SKIPTRAILINGSPACE(p, e): `e` moved left over trailing blanks, never below `p`. */
  function TrimEnd(s: string, p: nat, e: nat): (e': nat)
    requires p <= e <= |s|
    ensures p <= e' <= e
    ensures forall m :: e' <= m < e ==> IsBlank(s[m])
    ensures e' == p || !IsBlank(s[e' - 1])
    decreases e
  {
    if e > p && IsBlank(s[e - 1]) then TrimEnd(s, p, e - 1) else e
  }

  /**
   * Inside a span opened by the quote `q` just before `i`: the index just
   * after the next `q`, or `|s|` when the quote is never closed.  Nothing but
   * `q` itself is special here, braces and the other quote included.
   */
  function Quoted(s: string, i: nat, q: char): (r: nat)
    requires i <= |s|
    ensures i <= r <= |s|
    ensures (r == |s| && q !in s[i..]) || (i < r && s[r - 1] == q && q !in s[i..r - 1])
    decreases |s| - i
  {
    if i == |s| then i
    else if s[i] == q then i + 1
    else
      assert s[i..] == [s[i]] + s[i + 1..];
      var r := Quoted(s, i + 1, q);
      assert r < |s| ==> s[i..r - 1] == [s[i]] + s[i + 1..r - 1];
      r
  }

  /**
   * `_get_chain_end(s + i)`: skip blanks, then scan to the end of the value
   * that starts there.
   */
  function ChainEnd(s: string, i: nat): (r: nat)
    requires i <= |s|
    ensures i <= SkipSpace(s, i) <= r <= |s|
    ensures i < |s| && s[i] == '{' ==> i < r
    decreases |s| - i, 1
  {
    Scan(s, SkipSpace(s, i))
  }

  /**
   * The outer loop of `_get_chain_end`: stop at the end, a `,` or a `}`;
   * step over ordinary characters; at the first quote or `{` return the end
   * of that span without looking any further.
   */
  function Scan(s: string, i: nat): (r: nat)
    requires i <= |s|
    ensures i <= r <= |s|
    ensures i < |s| && s[i] == '{' ==> i < r
    decreases |s| - i, 0
  {
    if i == |s| || s[i] == ',' || s[i] == '}' then i
    else if s[i] == '{' then Braced(s, i + 1)
    else if IsQuote(s[i]) then Quoted(s, i + 1, s[i])
    else Scan(s, i + 1)
  }

  /**
   * The inner loop of `_get_chain_end` for a `{` opened just before `i`:
   * the index just after the matching `}`, or `|s|` when it never closes.
   * A nested `{` is handed to `ChainEnd` (the source's recursive call);
   * quotes are ordinary characters here.
   */
  function Braced(s: string, i: nat): (r: nat)
    requires i <= |s|
    ensures i <= r <= |s|
    decreases |s| - i, 2
  {
    if i == |s| then i
    else if s[i] == '}' then i + 1
    else if s[i] == '{' then Braced(s, ChainEnd(s, i))
    else Braced(s, i + 1)
  }

  // ---------------------------------------------------------------------
  // Reference definition: the same scan as a single left-to-right pass
  // with an explicit nesting counter instead of recursion.

  /** Where the single-pass scanner is: outside any span, in a quote, or `depth` braces deep. */
  datatype ScanState = Plain | InQuote(q: char) | InBraces(depth: nat)

  predicate ValidState(st: ScanState) {
    st.InBraces? ==> st.depth >= 1
  }

  /** The counter-based scanner, run from index `i` in state `st`. */
  function Run(s: string, i: nat, st: ScanState): (r: nat)
    requires i <= |s|
    requires ValidState(st)
    ensures i <= r <= |s|
    decreases |s| - i
  {
    if i == |s| then i
    else
      match st
      case Plain =>
        if s[i] == ',' || s[i] == '}' then i
        else if s[i] == '{' then Run(s, i + 1, InBraces(1))
        else if IsQuote(s[i]) then Run(s, i + 1, InQuote(s[i]))
        else Run(s, i + 1, Plain)
      case InQuote(q) =>
        if s[i] == q then i + 1 else Run(s, i + 1, st)
      case InBraces(d) =>
        if s[i] == '}' then (if d == 1 then i + 1 else Run(s, i + 1, InBraces(d - 1)))
        else if s[i] == '{' then Run(s, i + 1, InBraces(d + 1))
        else Run(s, i + 1, st)
  }

  /** The counter scanner continued at `k` with `d` braces still open (none: stop at `k`). */
  function RunOpen(s: string, k: nat, d: nat): nat
    requires k <= |s|
  {
    if d == 0 then k else Run(s, k, InBraces(d))
  }

  lemma {:induction false} QuotedIsRun(s: string, i: nat, q: char)
    requires i <= |s|
    ensures Quoted(s, i, q) == Run(s, i, InQuote(q))
    decreases |s| - i
  {
    if i < |s| && s[i] != q {
      QuotedIsRun(s, i + 1, q);
    }
  }

  /**
   * Closing one brace level by recursion and then carrying on with `d`
   * levels open is the same as counting `d + 1` levels down.
   */
  lemma {:induction false} BracedIsRun(s: string, i: nat, d: nat)
    requires i <= |s|
    ensures Run(s, i, InBraces(d + 1)) == RunOpen(s, Braced(s, i), d)
    decreases |s| - i
  {
    if i == |s| {
    } else if s[i] == '}' {
    } else if s[i] == '{' {
      var k := ChainEnd(s, i);
      assert SkipSpace(s, i) == i;
      assert k == Scan(s, i) == Braced(s, i + 1);
      BracedIsRun(s, i + 1, d + 1);
      BracedIsRun(s, k, d);
    } else {
      BracedIsRun(s, i + 1, d);
    }
  }

  lemma {:induction false} ScanIsRun(s: string, i: nat)
    requires i <= |s|
    ensures Scan(s, i) == Run(s, i, Plain)
    decreases |s| - i
  {
    if i == |s| || s[i] == ',' || s[i] == '}' {
    } else if s[i] == '{' {
      BracedIsRun(s, i + 1, 0);
    } else if IsQuote(s[i]) {
      QuotedIsRun(s, i + 1, s[i]);
    } else {
      ScanIsRun(s, i + 1);
    }
  }

  /** The recursive scanner and the counter scanner agree on every input. */
  lemma ChainEndIsRun(s: string, i: nat)
    requires i <= |s|
    ensures ChainEnd(s, i) == Run(s, SkipSpace(s, i), Plain)
  {
    ScanIsRun(s, SkipSpace(s, i));
  }

  // ---------------------------------------------------------------------
  // What the scan means without reference to how it recurses.

  /** The characters that end or open something at the top level of a value. */
  predicate IsSpecial(c: char) {
    c == ',' || c == '}' || c == '{' || IsQuote(c)
  }

  /** Opening braces minus closing braces in `t`; quotes do not matter. */
  function Balance(t: string): int {
    multiset(t)['{'] as int - multiset(t)['}'] as int
  }

  lemma BalanceAppend(a: string, b: string)
    ensures Balance(a + b) == Balance(a) + Balance(b)
  {
    assert multiset(a + b) == multiset(a) + multiset(b);
  }

  /**
   * `r` closes the brace opened just before `i`: every proper prefix of
   * `s[i..r]` has a non-negative balance, and `s[i..r]` itself either dips
   * to -1 (its last `}` is the match) or runs to the end of `s` unclosed.
   */
  ghost predicate ClosesBrace(s: string, i: nat, r: nat)
    requires i <= r <= |s|
  {
    && (forall m :: i <= m < r ==> Balance(s[i..m]) >= 0)
    && (Balance(s[i..r]) == -1 || (r == |s| && Balance(s[i..r]) >= 0))
  }

  /** Prepending one character shifts every prefix balance by that character's own balance. */
  lemma BalanceCons(s: string, i: nat, m: nat)
    requires i < m <= |s|
    ensures Balance(s[i..m]) == Balance([s[i]]) + Balance(s[i + 1..m])
  {
    assert s[i..m] == [s[i]] + s[i + 1..m];
    BalanceAppend([s[i]], s[i + 1..m]);
  }

  lemma BalanceSplit(s: string, i: nat, k: nat, m: nat)
    requires i <= k <= m <= |s|
    ensures Balance(s[i..m]) == Balance(s[i..k]) + Balance(s[k..m])
  {
    assert s[i..m] == s[i..k] + s[k..m];
    BalanceAppend(s[i..k], s[k..m]);
  }

  /** An ordinary character (not a brace) in front of a closed span leaves it closed. */
  lemma ClosesBracePlain(s: string, i: nat, r: nat)
    requires i < |s| && s[i] != '{' && s[i] != '}'
    requires i + 1 <= r <= |s|
    requires ClosesBrace(s, i + 1, r)
    ensures ClosesBrace(s, i, r)
  {
    assert Balance([s[i]]) == 0;
    assert s[i..i] == [];
    forall m | i + 1 <= m <= r
      ensures Balance(s[i..m]) == Balance(s[i + 1..m])
    {
      BalanceCons(s, i, m);
    }
  }

  /** A nested `{` at `i` whose own span closes at `k`: the balance from `i` stays non-negative and is back to 0 at `k`, unless the nesting runs off the end. */
  lemma ClosesBraceNested(s: string, i: nat, k: nat)
    requires i < |s| && s[i] == '{'
    requires i + 1 <= k <= |s|
    requires ClosesBrace(s, i + 1, k)
    ensures forall m :: i <= m < k ==> Balance(s[i..m]) >= 0
    ensures Balance(s[i..k]) == 0 || (k == |s| && Balance(s[i..k]) >= 1)
  {
    assert Balance([s[i]]) == 1;
    assert s[i..i] == [];
    forall m | i + 1 <= m <= k
      ensures Balance(s[i..m]) == 1 + Balance(s[i + 1..m])
    {
      BalanceCons(s, i, m);
    }
  }

  /** A balanced stretch `s[i..k]` followed by a span closing at `r` closes at `r`. */
  lemma ClosesBraceAfter(s: string, i: nat, k: nat, r: nat)
    requires i <= k <= r <= |s|
    requires forall m :: i <= m < k ==> Balance(s[i..m]) >= 0
    requires Balance(s[i..k]) == 0
    requires ClosesBrace(s, k, r)
    ensures ClosesBrace(s, i, r)
  {
    forall m | k <= m <= r
      ensures Balance(s[i..m]) == Balance(s[k..m])
    {
      BalanceSplit(s, i, k, m);
    }
  }

  lemma {:induction false} BracedBalance(s: string, i: nat)
    requires i <= |s|
    ensures ClosesBrace(s, i, Braced(s, i))
    decreases |s| - i
  {
    var r := Braced(s, i);
    if i == |s| {
      assert s[i..r] == [];
    } else if s[i] == '}' {
      assert s[i..i] == [];
      assert s[i..r] == [s[i]];
    } else if s[i] == '{' {
      var k := Braced(s, i + 1);
      BracedBalance(s, i + 1);
      if k < |s| {
        BracedBalance(s, k);
      }
      BracedOpenBalance(s, i, k);
    } else {
      BracedBalance(s, i + 1);
      ClosesBracePlain(s, i, r);
    }
  }

  /** The `{` case of `BracedBalance`, from what the recursive calls established. */
  lemma BracedOpenBalance(s: string, i: nat, k: nat)
    requires i < |s| && s[i] == '{' && k == Braced(s, i + 1)
    requires ClosesBrace(s, i + 1, k)
    requires k < |s| ==> ClosesBrace(s, k, Braced(s, k))
    ensures ClosesBrace(s, i, Braced(s, i))
  {
    assert SkipSpace(s, i) == i;
    assert ChainEnd(s, i) == Scan(s, i) == Braced(s, i + 1);
    var r := Braced(s, i);
    assert r == Braced(s, k);
    ClosesBraceNested(s, i, k);
    if k == |s| {
      assert r == k;
    } else {
      ClosesBraceAfter(s, i, k, r);
    }
  }

  /**
   * Conversely, the brace scan stops exactly at the first index where the
   * balance after `i` reaches -1, and at the end when it never does.
   */
  lemma BracedFirstClose(s: string, i: nat, j: nat)
    requires i <= j <= |s|
    requires forall m :: i <= m < j ==> Balance(s[i..m]) >= 0
    requires Balance(s[i..j]) == -1 || (j == |s| && Balance(s[i..j]) >= 0)
    ensures Braced(s, i) == j
  {
    BracedBalance(s, i);
  }

  lemma {:induction false} ScanSkipsPlain(s: string, j: nat, k: nat)
    requires j <= k <= |s|
    requires forall m :: j <= m < k ==> !IsSpecial(s[m])
    ensures Scan(s, j) == Scan(s, k)
    decreases k - j
  {
    if j < k {
      ScanSkipsPlain(s, j + 1, k);
    }
  }

  /**
   * The top-level behaviour of `_get_chain_end`: after the blanks, let `k`
   * be the first special character (or the end).  A `,`, a `}` or the end
   * is returned as it is; a quote or a `{` makes the result the end of that
   * one span, whatever follows it.
   */
  lemma ChainEndTopLevel(s: string, i: nat, k: nat)
    requires i <= |s|
    requires SkipSpace(s, i) <= k <= |s|
    requires forall m :: SkipSpace(s, i) <= m < k ==> !IsSpecial(s[m])
    requires k == |s| || IsSpecial(s[k])
    ensures k == |s| || s[k] == ',' || s[k] == '}' ==> ChainEnd(s, i) == k
    ensures k < |s| && IsQuote(s[k]) ==> ChainEnd(s, i) == Quoted(s, k + 1, s[k])
    ensures k < |s| && s[k] == '{' ==> ChainEnd(s, i) == Braced(s, k + 1)
  {
    ScanSkipsPlain(s, SkipSpace(s, i), k);
  }
}

=== FILE: wrappers.dfy ===
/** Optional values: the model's stand-in for a C pointer that may be NULL. */
module Wrappers {

  datatype Option<+T> = None | Some(value: T) {

    /** The wrapped value, or `default` when there is none. */
    function GetOr(default: T): T {
      match this
      case Some(v) => v
      case None => default
    }
  }
}
